=== FILE: README.md ===
# Baarìa film-festival booking: a verified model

This project models the booking core of the Baarìa film-festival site in Dafny.
The core has two halves.

The WordPress plugin stores bookings as `booking` posts. A booking is created
`pending` with a 32-character confirmation token that lives ten minutes. The
confirmation link publishes the booking and adds its seats to the showtime's
occupied-seat list. That list is post meta on the movie, keyed by
`<movie id>_<projection id>`. Deleting a published booking gives its seats back.

The React client does the rest. It normalises the movie records it reads from
the REST API. It lets the customer pick seats on a fixed theatre grid, or a
seat count for the short-film block. It validates the checkout form and posts
the booking request.

Modules:

- `Wrappers` (wrappers.dfy): `Option`.
- `Decimal` (decimal.dfy): integers printed in decimal, as PHP's string concatenation and JavaScript's template strings print them.
- `JsText` (js_text.dfy): JavaScript's white-space class, `trim` and `parseInt(s, 10)`.
- `SeatLists` (seat_lists.dfy): `array_diff` / `filter` and `array_unique` on seat lists.
- `Ledger` (ledger.dfy): the occupied-seat ledger and its update.
- `BookingStore` (booking_store.dfy): the plugin's handlers. The class `Store` holds the booking posts, the ledger and the next post id.
- `SeatBooking` (seat_booking.dfy): the seat grid, seat status and clicks.
- `QuantityPicker` (quantity.dfy): the seat-count picker of the short-film page.
- `EventPayload` (event_payload.dfy): `parseEventData`.
- `Checkout` (checkout.dfy): form validation, the request payload and the submit outcome.

Several things the plugin reads from outside are inputs of the handler methods:

- the clock, read as `time()`;
- the random token from `wp_generate_password`;
- WordPress's `is_email` verdict;
- the result of `wp_mail`.

Confirm and check-token read the clock twice. The token lookup reads it once and the handler reads it again. Both readings are parameters (`lookupNow`, `now`).

When a token matches several posts, WordPress decides which post the lookup returns. The model picks one of them nondeterministically.

Behaviour of the code worth knowing:

- The plugin has no seat-allocation algorithm. The client chooses the seats and the server stores them as sent.
- Confirmation does not re-check capacity. It adds the booking's seats to the ledger as they are.
- The "already confirmed" answers of confirm and check-token are never given when bookings change only through the handlers and every confirmation runs to its end. Confirmation deletes the token meta (PluginWordpressEventoBooking.php:485-486), so the secondary lookup for a published booking with that token finds nothing. `BookingStore.Store.ConfirmBooking` and `BookingStore.Store.CheckToken` prove this. A confirmation that aborts between publishing (line 451) and deleting the meta (lines 485-486) is not modelled; it would leave a published booking that still carries its token.
- The token lookup (PluginWordpressEventoBooking.php:624-627) already skips a pending booking whose expiry has passed. So a token that expired before the request is answered as an invalid token by confirm (lines 436-443) and by check-token (lines 506-513), and nothing is deleted. The "Token scaduto" answers (lines 445-449 and 516-518) come only when the expiry falls between the lookup's clock reading and the handler's. Only then does confirm delete the booking; check-token leaves it in place. The contracts state this as `lookupNow < now`. No sweep removes expired pending bookings: besides this case of confirm, only the admin delete handler (PluginWordpressEventoBooking.php:545-569, `BookingStore.Store.DeleteBooking`) removes one.

## Model

| member | source | states |
|---|---|---|
| Decimal.NatToString | PluginWordpressEventoBooking.php:384 | a natural number prints as a non-empty digit string without leading zeros |
| Decimal.DigitsValueOfNatToString | PluginWordpressEventoBooking.php:384 | reading the printed digits back gives the number |
| Decimal.NatToStringInjective | PluginWordpressEventoBooking.php:384 | different numbers print differently |
| Decimal.IntToString | PluginWordpressEventoBooking.php:384 | an integer prints without '_'; it prints as pure digits exactly when it is non-negative |
| Decimal.IntToStringInjective | PluginWordpressEventoBooking.php:384 | different integers print differently |
| JsText.TrimStart | src/components/Checkout.tsx:45 | the result is a suffix; everything dropped is white space; the result does not start with white space |
| JsText.TrimEnd | src/components/Checkout.tsx:45 | the result is a prefix; everything dropped is white space; the result does not end with white space |
| JsText.Trim | src/components/Checkout.tsx:45 | `trim()` never lengthens a text, and a non-empty result neither starts nor ends with white space |
| JsText.TrimEmptyIffAllSpace | src/components/Checkout.tsx:45 | a field trims to "" exactly when it is all white space |
| JsText.TrimIsInnerSlice | src/components/Checkout.tsx:45 | the trimmed text is a slice of the input with only white space on either side |
| JsText.DigitPrefix | src/components/AtolliBookingPage.tsx:139 | the longest run of leading digits, stopped by the first non-digit |
| JsText.ParseInt | src/components/AtolliBookingPage.tsx:139 | `parseInt` is NaN exactly when no digit follows the leading white space and the optional sign |
| JsText.DigitPrefixOfDigits | src/components/AtolliBookingPage.tsx:139 | an all-digit text is read entirely |
| JsText.ParseIntOfNatToString | src/components/AtolliBookingPage.tsx:139 | `parseInt` of a printed number gives the number back |
| SeatLists.Diff | PluginWordpressEventoBooking.php:645 | keeps exactly the elements not being removed, in order |
| SeatLists.Unique | PluginWordpressEventoBooking.php:647 | no duplicates, same elements, never longer |
| SeatLists.DiffAppend | PluginWordpressEventoBooking.php:645 | removing from a concatenation is removing from each part |
| SeatLists.DiffDisjoint | PluginWordpressEventoBooking.php:645 | removing seats that are absent changes nothing |
| SeatLists.DiffCovered | PluginWordpressEventoBooking.php:645 | removing every element leaves nothing |
| SeatLists.DiffKeepsNoDup | PluginWordpressEventoBooking.php:645 | removal keeps a list duplicate-free |
| SeatLists.UniqueOfNoDup | PluginWordpressEventoBooking.php:647 | `array_unique` leaves a duplicate-free list as it is |
| SeatLists.UniqueAppend | PluginWordpressEventoBooking.php:647 | deduplicating a concatenation keeps the first part's survivors, then the new elements of the second part |
| Ledger.UpdatedSeats | PluginWordpressEventoBooking.php:638-647 | the new list holds each seat once; a seat is in it exactly when it was occupied or added and is not removed |
| Ledger.Stored | PluginWordpressEventoBooking.php:638 | a missing ledger entry reads as no seats |
| Ledger.LedgerAfterUpdate | PluginWordpressEventoBooking.php:633-648 | an empty movie id or showtime key changes nothing; otherwise only that showtime's entry changes, to the updated list |
| Ledger.ReserveAppends | PluginWordpressEventoBooking.php:641-647 | reserving keeps the occupied seats in order and appends the new seats, each once |
| Ledger.ReleaseFilters | PluginWordpressEventoBooking.php:644-647 | releasing keeps the remaining seats in their order |
| Ledger.ReserveIdempotent | PluginWordpressEventoBooking.php:641-647 | reserving the same seats twice is the same as once |
| Ledger.ReserveThenRelease | PluginWordpressEventoBooking.php:641-647 | releasing seats just reserved restores the list, when they were free before |
| Ledger.ConfirmThenDeleteRestoresLedger | PluginWordpressEventoBooking.php:455-458 | deleting a confirmed booking restores every ledger entry as read before its confirmation, when its seats were free |
| BookingStore.ShowtimeKey | PluginWordpressEventoBooking.php:384 | the showtime key is never PHP-empty and holds the '_' separator |
| BookingStore.ShowtimeKeyInjective | PluginWordpressEventoBooking.php:384 | two showtimes share a key only if both ids agree |
| BookingStore.OrDefault | PluginWordpressEventoBooking.php:191 | PHP `?:`: a custom message is used unless it is "" or "0" |
| BookingStore.StatusMessage | PluginWordpressEventoBooking.php:187-194 | free entry wins over disabled bookings, which win over "available"; a custom closed message replaces the default |
| BookingStore.RequestComplete | PluginWordpressEventoBooking.php:346-349 | a complete request has a `seats` array that is not empty (a non-array counts as none), a movie id and a projection id |
| BookingStore.BookingGate | PluginWordpressEventoBooking.php:353-363 | a create request is refused exactly when bookings are off and a booking is required, or when none is required |
| BookingStore.GateOpenIffAvailable | PluginWordpressEventoBooking.php:187-194 | the event page says "Prenotazione disponibile." exactly when a create request passes the booking switches |
| BookingStore.CreateHttpStatus | PluginWordpressEventoBooking.php:349-424 | 200 exactly for a created booking, 403 exactly for closed bookings |
| BookingStore.ConfirmedBooking | PluginWordpressEventoBooking.php:451-486 | a confirmed booking is published without token or expiry and keeps its seats and showtime |
| BookingStore.Store.OccupiedSeatsReply | PluginWordpressEventoBooking.php:491-501 | an error exactly when the movie id or key is empty; otherwise the stored list, or none |
| BookingStore.Store.UpdateOccupiedSeats | PluginWordpressEventoBooking.php:633-649 | the ledger becomes `LedgerAfterUpdate` and nothing else changes; the result is true exactly when the stored list changed |
| BookingStore.Store.FindBookingByToken | PluginWordpressEventoBooking.php:607-631 | a found booking has the status and token asked for, and is unexpired for a pending lookup; nothing is found only when no booking matches or the match has expired; a published lookup in a valid store finds nothing |
| BookingStore.Store.CreateBooking | PluginWordpressEventoBooking.php:339-426 | each refusal, in the source's order, exactly when the earlier checks pass and its own fails: invalid request, closed or not-required bookings, unknown projection, projection of another movie, mail not sent; a valid request is created exactly when the mail goes out; a created booking is a new pending post with the token and an expiry ten minutes on; a failed mail leaves no booking; the ledger never changes |
| BookingStore.Store.ConfirmBooking | PluginWordpressEventoBooking.php:428-489 | empty token is refused; a live token publishes the booking and reserves its seats; a token that expired before the lookup is an invalid token and changes nothing; "Token scaduto" only when the expiry falls between the two clock readings, and then the booking is deleted and the ledger kept; "already confirmed" never happens |
| BookingStore.Store.PublishBooking | PluginWordpressEventoBooking.php:451-486 | the booking becomes its confirmed form and its seats are added to its showtime's entry |
| BookingStore.Store.CheckToken | PluginWordpressEventoBooking.php:503-543 | a live token returns the booking's own fields; "Token scaduto" only for a booking live at the lookup and expired at the handler's clock reading; a token that expired earlier is an invalid token; nothing changes; "already confirmed" never happens |
| BookingStore.Store.DeleteBooking | PluginWordpressEventoBooking.php:545-569 | an unknown id changes nothing; otherwise the post goes, and its seats are released only if it was published |
| SeatBooking.ColumnRun | src/components/SeatBooking.tsx:27-28 | a run of consecutive seat columns |
| SeatBooking.SeatId | src/components/SeatBooking.tsx:121 | a seat id is the row letter followed by the number |
| SeatBooking.SeatIdInjective | src/components/SeatBooking.tsx:121 | distinct (row, number) pairs give distinct ids |
| SeatBooking.SeatNumbersAppend | src/components/SeatBooking.tsx:27 | the seat numbers of joined column lists are joined, aisles skipped |
| SeatBooking.SeatNumbersOfRun | src/components/SeatBooking.tsx:27-28 | a run of columns gives its consecutive numbers |
| SeatBooking.RowSeats | src/components/SeatBooking.tsx:118-121 | one id per seat column of the row |
| SeatBooking.RowLayout | src/components/SeatBooking.tsx:27-30 | row V has seats 3-14; every other row has seats 1-17 |
| SeatBooking.SeatIdsDistinct | src/components/SeatBooking.tsx:118-121 | no two places of the grid share an id |
| SeatBooking.NoSeatIsOnTheGrid | src/components/SeatBooking.tsx:57 | "Q17" is a real place of the grid, shown empty |
| SeatBooking.GetSeatStatus | src/components/SeatBooking.tsx:64-69 | each status holds exactly in its case: empty for Q17, then occupied, selected, available |
| SeatBooking.HandleSeatClick | src/components/SeatBooking.tsx:56-62 | Q17 and occupied seats are ignored; a selected seat is removed; a free seat is appended; no other seat changes |
| SeatBooking.ClickFollowsStatus | src/components/SeatBooking.tsx:56-69 | a click does what the seat's status shows: nothing, deselect or select |
| SeatBooking.ClickTwiceRestores | src/components/SeatBooking.tsx:56-62 | clicking a free seat twice restores the selection |
| SeatBooking.ClickKeepsNoDup | src/components/SeatBooking.tsx:56-62 | a selection never holds a seat twice |
| QuantityPicker.AvailableSeatsCount | src/components/AtolliBookingPage.tsx:76-80 | available seats plus occupied, VIP and disabled seats make 200 |
| QuantityPicker.MaxQuantity | src/components/AtolliBookingPage.tsx:82 | the smaller of 4 and the available count |
| QuantityPicker.TypedQuantity | src/components/AtolliBookingPage.tsx:139 | `parseInt(...) \|\| 1`: never 0, and 1 for unparsable input |
| QuantityPicker.ClampQuantity | src/components/AtolliBookingPage.tsx:139 | never above the maximum; at least 1 whenever a seat is offered |
| QuantityPicker.ClampKeepsOfferedQuantity | src/components/AtolliBookingPage.tsx:139 | typing an offered quantity selects it |
| QuantityPicker.ClampUnparsable | src/components/AtolliBookingPage.tsx:139 | non-numeric input selects one seat |
| QuantityPicker.CanProceed | src/components/AtolliBookingPage.tsx:145 | proceeding is enabled exactly when the maximum is at least 1 |
| QuantityPicker.InputMax | src/components/AtolliBookingPage.tsx:137 | the picker's max is the offered maximum, and never below 1 |
| QuantityPicker.ClampWithinPickerBounds | src/components/AtolliBookingPage.tsx:135-139 | whatever is typed, the quantity stays within the picker's min and max |
| QuantityPicker.ProceedIffSeatLeft | src/components/AtolliBookingPage.tsx:76-82 | the block can be booked exactly when fewer than 200 seats are taken or set aside |
| QuantityPicker.TotalDuration | src/components/AtolliBookingPage.tsx:60 | missing durations count as 0, so a block with none totals 0; a single film totals its own duration |
| QuantityPicker.TotalDurationAppend | src/components/AtolliBookingPage.tsx:60 | the total running time of a block is additive over its parts |
| QuantityPicker.TotalDurationBounds | src/components/AtolliBookingPage.tsx:60 | with non-negative durations the total is non-negative and at least each film's |
| EventPayload.Or | src/api.ts:22 | JavaScript `\|\|` keeps a truthy left operand and otherwise gives the right |
| EventPayload.Get | src/api.ts:11 | a property read gives the field, or undefined when absent |
| EventPayload.ParseProjection | src/api.ts:10-25 | a null projection throws; `location_type` defaults to 'cinema_capitol'; VIP and disabled seats default to [] |
| EventPayload.MapProjections | src/api.ts:10 | projections are mapped one to one, in order; it fails exactly when some element is null or undefined |
| EventPayload.ParseProgrammazione | src/api.ts:10 | a missing list gives no projections; a non-array throws |
| EventPayload.BookingsEnabled | src/api.ts:50 | undefined means enabled; otherwise truthiness (so null disables) |
| EventPayload.RenderedTitle | src/api.ts:29 | `eventPayload.title?.rendered` is undefined when the title object is null or missing, and the title's `rendered` field otherwise |
| EventPayload.FalsyTitleHasNoRenderedTitle | src/api.ts:29 | a falsy `title` gives a falsy `title?.rendered`, so the title falls through to 'Titolo Mancante' |
| EventPayload.NormaliseDetails | src/api.ts:27-56 | the title is always truthy: the details title if truthy, else the rendered title if truthy, else 'Titolo Mancante'; `id` is the details id if truthy, else the payload's; `bookings_enabled` is true when undefined and its truthiness otherwise; `booking_not_required` is its truthiness; the mapped projections are kept |
| EventPayload.DetailsOf | src/api.ts:9 | the details object is never null |
| EventPayload.ParseEventData | src/api.ts:8-66 | it fails exactly on a null payload or a bad projection list; the details title, else a truthy `title.rendered`, else 'Titolo Mancante'; both durations agree and default to 0; `bookings_enabled` is true when undefined and its truthiness otherwise; `booking_not_required` is its truthiness; the projections are the mapped input list, in order |
| EventPayload.ParsedProjectionIsNormal | src/api.ts:22-24 | every mapped projection has its defaults filled in |
| EventPayload.ReparseProjection | src/api.ts:10-25 | mapping a normal projection again gives it back |
| EventPayload.ReparseProjections | src/api.ts:10 | mapping a list of normal projections again gives it back |
| EventPayload.ParsedEventIsNormal | src/api.ts:8-66 | every parsed event has all its defaults in place |
| EventPayload.ReparseEvent | src/api.ts:8-66 | `parseEventData` is idempotent on its own output |
| Checkout.MatchesEmailPattern | src/components/Checkout.tsx:52 | a text matching `\S+@\S+\.\S+` has at least five characters and contains '@' and '.' |
| Checkout.ShapeInInnerSlice | src/components/Checkout.tsx:52 | a match of the e-mail pattern never touches white space at either end |
| Checkout.EmailPatternIgnoresSurroundingSpace | src/components/Checkout.tsx:52 | testing the untrimmed e-mail gives the same verdict as testing the trimmed one |
| Checkout.MatchIsNotBlank | src/components/Checkout.tsx:49-52 | an e-mail matching the pattern is never blank |
| Checkout.EmailError | src/components/Checkout.tsx:49-55 | "obbligatoria" exactly when blank, "non valida" exactly when filled but unmatched, never both |
| Checkout.FieldErrors | src/components/Checkout.tsx:44-59 | each field's error depends on that field alone; all three are reported together; the submit error is cleared |
| Checkout.ValidIffNoErrors | src/components/Checkout.tsx:42-62 | the form is valid exactly when no field shows an error |
| Checkout.ValidIffFilledAndShaped | src/components/Checkout.tsx:42-62 | valid exactly when name and phone are filled and the trimmed e-mail matches the pattern |
| Checkout.ValidateForm | src/components/Checkout.tsx:42-62 | the imperative check returns exactly the specified errors and validity |
| Checkout.BuildPayload | src/components/Checkout.tsx:70-82 | the request carries the seats unchanged, the event id as `movie_id`, the form as typed, and the projection's id, location name, location address, showtime description and showtime key |
| Checkout.Submit | src/components/Checkout.tsx:64-97 | nothing is sent unless the form is valid; success hands over the e-mail as typed; a failure always shows a message, the server's when it has one |

## Left out

- PDF tickets, QR codes and the e-mail HTML templates (PluginWordpressEventoBooking.php:651-776 and 779 onward). They are foreign rendering code. The confirm handler's PDF and mail steps are not modelled.
- Post-type and ACF field registration, and the event-details REST field apart from its status message. These are WordPress configuration.
- The admin booking list (`baaria_get_all_bookings_request_v6`). It only reads and formats.
- The showtime description and its date formatting (PluginWordpressEventoBooking.php:374-382). They depend on the locale.
- Sanitizing of request parameters, and the internals of `is_email`. The sanitized values and the `is_email` verdict are inputs.
- Changes made outside the REST handlers. The `booking` post type is shown in wp-admin with custom fields (PluginWordpressEventoBooking.php:81, 88), so an editor can publish a pending booking or edit its meta there. A booking published that way keeps its `_confirmation_token`, and confirm and check-token would then answer "already confirmed" (lines 436-443 and 506-513). The model's store invariant (a published booking carries no token) holds only for bookings changed by the handlers.
- A confirmation that stops part-way: a PHP `Error` thrown by the PDF or mail steps (PluginWordpressEventoBooking.php:459-483) is not caught by the PDF generator's `catch (Exception $e)` blocks (lines 728 and 771) and would leave the booking published with its token meta. The model runs every confirmation to its end.
- Storage failures: a `wp_insert_post` error (line 396), a `wp_update_post` failure (line 452), and a `wp_delete_post` failure in delete.
- Concurrency. Each handler runs as one atomic step. Two confirmations racing on one showtime are not modelled.
- The short-film quantity. Only the declared parameter type of `requestBookingWithPdf` names a `quantity` field (src/api.ts:86); its one caller (src/components/Checkout.tsx:70-85) sends `seats`. The quantity chosen on the short-film page goes to `onProceedToCheckout` (src/components/AtolliBookingPage.tsx:144), which no request in the code receives. The create handler requires a non-empty `seats` array (PluginWordpressEventoBooking.php:346-349). No server-side allocation exists, and none is invented.
- Check-token's catalog lookups: the movie title and the projection location name and address. `BookingStore.Store.CheckToken` returns the booking's own fields only.
- BookingStore.Store.FindBookingByToken: compares the expiry with `<=` on integers. PHP's comparison of a stored meta string with `time()` is taken as numeric.
- QuantityPicker.TypedQuantity: JavaScript numbers are modelled as integers. Fractional input and parses beyond 2^53 are not modelled.
- EventPayload.ParseEventData: JSON numbers are integers, so NaN and fractional values are not modelled. Getters and prototype properties are not modelled either.
- Checkout.Submit: React's state batching is not modelled. In particular, the stale `errors` object spread into `setErrors` after validation is not modelled. The model gives the outcome of one submission. The `isSubmitting` flag is not modelled either.
- The UI components. This covers markup, the loading and error states, the event list's date filter, and the page stepper.
- The axios fetch wrappers (src/api.ts:68-96). The server's reply to a submission is an input of `Checkout.Submit`.

=== FILE: booking_store.dfy ===
/**
 * The booking side of the WordPress plugin: bookings stored as posts of type
 * `booking` with status `pending` or `publish` and their post meta, the
 * occupied-seat ledger, and the REST handlers that create, confirm, check and
 * delete bookings.
 *
 * The clock (`time()`), the random token (`wp_generate_password(32, false)`),
 * WordPress's `is_email` verdict and the result of `wp_mail` are inputs of the
 * handlers. Confirm and check-token read the clock twice: once inside the token
 * lookup and once in the handler itself.
 */
module BookingStore {
  import opened Wrappers
  import opened Decimal
  import opened SeatLists
  import opened Ledger

  /** Seconds a confirmation token stays valid: `10 * 60`. */
  const TokenLifetime: int := 10 * 60

  datatype Status = Pending | Publish

  /** A `booking` post: its status and the meta fields the handlers read and write. */
  datatype Booking = Booking(
    name: string,
    email: string,
    phone: string,
    movieId: int,
    projectionId: int,
    showtimeKey: string,
    seats: seq<string>,
    status: Status,
    token: Option<string>,
    expiration: Option<int>)

  /** The ledger key of a showtime: `$movie_id . '_' . $proiezione_id`. */
  function ShowtimeKey(movieId: int, projectionId: int): (k: string)
    ensures !PhpEmptyString(k)
    ensures '_' in k
  {
    IntToString(movieId) + "_" + IntToString(projectionId)
  }

  lemma SeparatorFirstAt(a: string, b: string)
    requires '_' !in a
    ensures (a + "_" + b)[|a|] == '_'
    ensures forall k :: 0 <= k < |a| ==> (a + "_" + b)[k] != '_'
  {
    forall k | 0 <= k < |a| ensures (a + "_" + b)[k] != '_' {
      assert (a + "_" + b)[k] == a[k];
    }
  }

  lemma SplitAtSeparator(a: string, b: string, c: string, d: string)
    requires '_' !in a && '_' !in c
    requires a + "_" + b == c + "_" + d
    ensures a == c && b == d
  {
    var s := a + "_" + b;
    SeparatorFirstAt(a, b);
    SeparatorFirstAt(c, d);
    if |a| < |c| {
      assert false;
    } else if |c| < |a| {
      assert false;
    }
    assert a == s[..|a|] && c == s[..|c|];
    assert b == s[|a| + 1..] && d == s[|c| + 1..];
  }

  /** Different showtimes never share a ledger entry: the key determines both ids. */
  lemma ShowtimeKeyInjective(m1: int, p1: int, m2: int, p2: int)
    requires ShowtimeKey(m1, p1) == ShowtimeKey(m2, p2)
    ensures m1 == m2 && p1 == p2
  {
    SplitAtSeparator(IntToString(m1), IntToString(p1), IntToString(m2), IntToString(p2));
    IntToStringInjective(m1, m2);
    IntToStringInjective(p1, p2);
  }

  predicate IsAlphanumeric(c: char) {
    ('a' <= c <= 'z') || ('A' <= c <= 'Z') || ('0' <= c <= '9')
  }

  /** What `wp_generate_password(32, false)` yields: 32 letters and digits. */
  predicate IsGeneratedToken(t: string) {
    |t| == 32 && forall i :: 0 <= i < |t| ==> IsAlphanumeric(t[i])
  }

  /** The ACF fields of a movie post that gate bookings. A missing post reads as all empty. */
  datatype MovieFields = MovieFields(enableBookings: bool, bookingNotRequired: bool, disabledMessage: string)

  /**
   * The catalog the handlers read: the movie posts' booking fields and, for every
   * `proiezione` post, the movie it is associated with (`evento_film_associato`).
   */
  datatype Catalog = Catalog(movies: map<int, MovieFields>, projectionEvent: map<int, int>)

  function FieldsOf(catalog: Catalog, movieId: int): MovieFields {
    if movieId in catalog.movies then catalog.movies[movieId] else MovieFields(false, false, "")
  }

  /** PHP's `$custom ?: $default`: an empty string or "0" falls back to the default. */
  function OrDefault(custom: string, default: string): (r: string)
    ensures !PhpEmptyString(custom) ==> r == custom
    ensures PhpEmptyString(custom) ==> r == default
  {
    if PhpEmptyString(custom) then default else custom
  }

  const FreeEntryMessage := "Ingresso libero, prenotazione non necessaria."
  const BookingsOverMessage := "Le prenotazioni sono terminate o non ancora disponibili."
  const BookingAvailableMessage := "Prenotazione disponibile."
  const BookingsClosedMessage := "Le prenotazioni per questo evento sono attualmente chiuse."

  /** The `booking_status_message` of the event-details REST field. */
  function StatusMessage(fields: MovieFields): (m: string)
    ensures fields.bookingNotRequired ==> m == FreeEntryMessage
    ensures !fields.bookingNotRequired && !fields.enableBookings ==>
      m == OrDefault(fields.disabledMessage, BookingsOverMessage)
    ensures !fields.bookingNotRequired && fields.enableBookings ==> m == BookingAvailableMessage
  {
    if fields.bookingNotRequired then FreeEntryMessage
    else if !fields.enableBookings then OrDefault(fields.disabledMessage, BookingsOverMessage)
    else BookingAvailableMessage
  }

  /** Whether a create request gets past the movie's booking switches. */
  datatype Gate = Open | Closed(message: string) | NotRequired

  function BookingGate(fields: MovieFields): (g: Gate)
    ensures g.Closed? <==> !fields.enableBookings && !fields.bookingNotRequired
    ensures g.NotRequired? <==> fields.bookingNotRequired
    ensures g.Closed? ==> g.message == OrDefault(fields.disabledMessage, BookingsClosedMessage)
  {
    if !fields.enableBookings && !fields.bookingNotRequired then
      Closed(OrDefault(fields.disabledMessage, BookingsClosedMessage))
    else if fields.bookingNotRequired then NotRequired
    else Open
  }

  /**
   * The event page advertises "Prenotazione disponibile." exactly when a create
   * request would pass the booking switches (unless an editor typed that very
   * sentence as the custom closed message).
   */
  lemma GateOpenIffAvailable(fields: MovieFields)
    requires fields.disabledMessage != BookingAvailableMessage
    ensures BookingGate(fields) == Open <==> StatusMessage(fields) == BookingAvailableMessage
  {
    if !fields.bookingNotRequired && !fields.enableBookings {
      assert BookingsOverMessage != BookingAvailableMessage;
    } else if fields.bookingNotRequired {
      assert FreeEntryMessage != BookingAvailableMessage;
    }
  }

  /** The parameters of a create request after sanitizing; `seats` is None when not an array. */
  datatype CreateRequest = CreateRequest(
    name: string, email: string, phone: string, movieId: int, projectionId: int, seats: Option<seq<string>>)

  function RequestSeats(req: CreateRequest): seq<string> {
    req.seats.GetOr([])
  }

  /**
   * The 400 guard: name, valid email, movie id, projection id and seats must all be
   * present; a `seats` parameter that is not an array counts as no seats.
   */
  function RequestComplete(req: CreateRequest, emailValid: bool): (complete: bool)
    ensures complete ==> req.seats.Some? && req.seats.value != []
    ensures complete ==> req.movieId != 0 && req.projectionId != 0
  {
    !PhpEmptyString(req.name) && emailValid && req.movieId != 0 && req.projectionId != 0 && RequestSeats(req) != []
  }

  datatype CreateOutcome =
    | Created(id: int)
    | InvalidRequest
    | BookingsClosed(message: string)
    | BookingNotNeeded
    | UnknownProjection
    | ProjectionNotLinked
    | MailNotSent

  function CreateHttpStatus(o: CreateOutcome): (code: int)
    ensures code == 200 <==> o.Created?
    ensures code == 403 <==> o.BookingsClosed?
  {
    match o
    case Created(_) => 200
    case BookingsClosed(_) => 403
    case MailNotSent => 500
    case _ => 400
  }

  datatype ConfirmOutcome =
    | Confirmed(id: int)
    | MissingToken
    | AlreadyConfirmed
    | InvalidToken
    | TokenExpired(id: int)

  /** The booking summary that check-token returns (catalog titles and locations left aside). */
  datatype BookingDetails = BookingDetails(
    id: int, name: string, email: string, phone: string, movieId: int, projectionId: int,
    showtimeKey: string, seats: seq<string>)

  datatype CheckOutcome =
    | TokenUsable(details: BookingDetails)
    | CheckAlreadyConfirmed
    | CheckInvalidToken
    | CheckTokenExpired

  datatype DeleteOutcome = Deleted | InvalidBookingId

  datatype OccupiedReply = OccupiedSeats(seats: seq<string>) | MissingParameters

  /** A booking as the handlers leave it: pending ones carry a token and an expiry, published ones neither. */
  predicate WellFormed(b: Booking) {
    && b.showtimeKey == ShowtimeKey(b.movieId, b.projectionId)
    && b.movieId != 0 && b.projectionId != 0 && b.seats != []
    && (b.status == Pending ==> b.token.Some? && IsGeneratedToken(b.token.value) && b.expiration.Some?)
    && (b.status == Publish ==> b.token.None? && b.expiration.None?)
  }

  predicate CarriesToken(b: Booking, token: string, status: Status) {
    b.status == status && b.token == Some(token)
  }

  predicate Unexpired(b: Booking, now: int) {
    b.expiration.Some? && now <= b.expiration.value
  }

  /** The booking after confirmation: published, its token and expiry meta deleted. */
  function ConfirmedBooking(b: Booking): (c: Booking)
    ensures c.status == Publish && c.token.None? && c.expiration.None?
    ensures c.seats == b.seats && c.movieId == b.movieId && c.showtimeKey == b.showtimeKey
  {
    b.(status := Publish, token := None, expiration := None)
  }

  /** Writing a post twice leaves only the second write. */
  lemma OverwriteEntry(m: map<int, Booking>, k: int, first: Booking, second: Booking)
    ensures m[k := first][k := second] == m[k := second]
  {
  }

  lemma ConfirmedStaysWellFormed(b: Booking)
    requires WellFormed(b)
    ensures WellFormed(ConfirmedBooking(b))
  {
  }

  class Store {
    /** `booking` posts by post id. */
    var bookings: map<int, Booking>
    /** Occupied seats per (movie post id, showtime key). */
    var ledger: OccupancyLedger
    /** The id the next inserted post receives. */
    var nextId: int

    ghost predicate Valid()
      reads this
    {
      && 0 < nextId
      && (forall id :: id in bookings ==> 0 < id < nextId && WellFormed(bookings[id]))
      && (forall k :: k in ledger ==> NoDup(ledger[k]))
    }

    constructor ()
      ensures Valid() && bookings == map[] && ledger == map[]
    {
      bookings := map[];
      ledger := map[];
      nextId := 1;
    }

    /** `baaria_get_occupied_seats_request_v6`. */
    function OccupiedSeatsReply(movieId: int, showtimeKey: string): (r: OccupiedReply)
      reads this
      ensures r.MissingParameters? <==> movieId == 0 || PhpEmptyString(showtimeKey)
      ensures r.OccupiedSeats? && (movieId, showtimeKey) !in ledger ==> r.seats == []
      ensures r.OccupiedSeats? && (movieId, showtimeKey) in ledger ==> r.seats == ledger[(movieId, showtimeKey)]
    {
      if movieId == 0 || PhpEmptyString(showtimeKey) then MissingParameters
      else OccupiedSeats(Stored(ledger, movieId, showtimeKey))
    }

    /** `baaria_update_occupied_seats_internal_v6`; the result is what `update_post_meta` returns. */
    method UpdateOccupiedSeats(movieId: int, showtimeKey: string, add: seq<string>, remove: seq<string>)
      returns (written: bool)
      modifies this
      ensures ledger == LedgerAfterUpdate(old(ledger), movieId, showtimeKey, add, remove)
      ensures bookings == old(bookings) && nextId == old(nextId)
      ensures movieId == 0 || PhpEmptyString(showtimeKey) ==> !written
      ensures movieId != 0 && !PhpEmptyString(showtimeKey) ==>
        (written <==> (movieId, showtimeKey) !in old(ledger) || old(ledger)[(movieId, showtimeKey)] != ledger[(movieId, showtimeKey)])
    {
      if movieId == 0 || PhpEmptyString(showtimeKey) {
        return false;
      }
      var key := (movieId, showtimeKey);
      var occupied := if key in ledger then ledger[key] else [];
      if add != [] {
        occupied := occupied + add;
      }
      if remove != [] {
        occupied := Diff(occupied, remove);
      }
      occupied := Unique(occupied);
      // update_post_meta reports false when the stored value is already the new one
      written := key !in ledger || ledger[key] != occupied;
      ledger := ledger[key := occupied];
    }

    /**
     * `baaria_get_booking_id_by_token`: the query returns one booking of the given
     * status carrying the token (which one, when several do, is up to WordPress);
     * for `pending` without `ignoreExpiration` it is returned only while unexpired.
     */
    method FindBookingByToken(token: string, status: Status, ignoreExpiration: bool, now: int)
      returns (found: Option<int>)
      ensures found.Some? ==> found.value in bookings && CarriesToken(bookings[found.value], token, status)
      ensures found.Some? && status == Pending && !ignoreExpiration ==> Unexpired(bookings[found.value], now)
      ensures status == Publish && Valid() ==> found.None?
      ensures found.None? ==>
        || (forall id :: id in bookings ==> !CarriesToken(bookings[id], token, status))
        || (status == Pending && !ignoreExpiration &&
            exists id :: id in bookings && CarriesToken(bookings[id], token, status) && !Unexpired(bookings[id], now))
    {
      if id :| id in bookings && CarriesToken(bookings[id], token, status) {
        if ignoreExpiration || status != Pending {
          found := Some(id);
        } else if Unexpired(bookings[id], now) {
          found := Some(id);
        } else {
          found := None;
        }
      } else {
        found := None;
      }
    }

    /** `baaria_handle_booking_with_pdf_request_v6`. */
    method CreateBooking(req: CreateRequest, emailValid: bool, catalog: Catalog, now: int, token: string, mailSent: bool)
      returns (outcome: CreateOutcome)
      requires Valid()
      requires IsGeneratedToken(token)
      modifies this
      ensures Valid()
      ensures ledger == old(ledger)
      ensures !RequestComplete(req, emailValid) ==> outcome == InvalidRequest
      ensures RequestComplete(req, emailValid) && BookingGate(FieldsOf(catalog, req.movieId)).Closed? ==>
        outcome == BookingsClosed(BookingGate(FieldsOf(catalog, req.movieId)).message)
      ensures RequestComplete(req, emailValid) && BookingGate(FieldsOf(catalog, req.movieId)).NotRequired? ==>
        outcome == BookingNotNeeded
      ensures outcome.Created? ==>
        && RequestComplete(req, emailValid)
        && BookingGate(FieldsOf(catalog, req.movieId)) == Open
        && req.projectionId in catalog.projectionEvent
        && catalog.projectionEvent[req.projectionId] == req.movieId
        && mailSent
        && outcome.id !in old(bookings)
        && bookings == old(bookings)[outcome.id := Booking(
             req.name, req.email, req.phone, req.movieId, req.projectionId,
             ShowtimeKey(req.movieId, req.projectionId), RequestSeats(req),
             Pending, Some(token), Some(now + TokenLifetime))]
      ensures !outcome.Created? ==> bookings == old(bookings)
      ensures outcome == UnknownProjection <==>
        RequestComplete(req, emailValid) && BookingGate(FieldsOf(catalog, req.movieId)) == Open &&
        req.projectionId !in catalog.projectionEvent
      ensures outcome == ProjectionNotLinked <==>
        RequestComplete(req, emailValid) && BookingGate(FieldsOf(catalog, req.movieId)) == Open &&
        req.projectionId in catalog.projectionEvent && catalog.projectionEvent[req.projectionId] != req.movieId
      ensures (RequestComplete(req, emailValid) && BookingGate(FieldsOf(catalog, req.movieId)) == Open &&
               req.projectionId in catalog.projectionEvent && catalog.projectionEvent[req.projectionId] == req.movieId) ==>
        (outcome.Created? <==> mailSent)
      ensures outcome == MailNotSent <==>
        RequestComplete(req, emailValid) && BookingGate(FieldsOf(catalog, req.movieId)) == Open &&
        req.projectionId in catalog.projectionEvent && catalog.projectionEvent[req.projectionId] == req.movieId &&
        !mailSent
    {
      var seats := RequestSeats(req);
      if PhpEmptyString(req.name) || !emailValid || req.movieId == 0 || req.projectionId == 0 || seats == [] {
        return InvalidRequest;
      }
      match BookingGate(FieldsOf(catalog, req.movieId))
      case Closed(message) =>
        return BookingsClosed(message);
      case NotRequired =>
        return BookingNotNeeded;
      case Open =>
      if req.projectionId !in catalog.projectionEvent {
        return UnknownProjection;
      }
      if catalog.projectionEvent[req.projectionId] != req.movieId {
        return ProjectionNotLinked;
      }
      var showtimeKey := ShowtimeKey(req.movieId, req.projectionId);
      var expiration := now + TokenLifetime;
      var id := nextId;
      nextId := nextId + 1;
      bookings := bookings[id := Booking(req.name, req.email, req.phone, req.movieId, req.projectionId,
                                         showtimeKey, seats, Pending, Some(token), Some(expiration))];
      if mailSent {
        outcome := Created(id);
      } else {
        // wp_delete_post($booking_id, true)
        bookings := bookings - {id};
        assert bookings == old(bookings);
        outcome := MailNotSent;
      }
    }

    /** `baaria_handle_confirm_booking_with_pdf_request_v6`; PDF and mail are left out. */
    method ConfirmBooking(token: string, lookupNow: int, now: int) returns (outcome: ConfirmOutcome)
      requires Valid()
      modifies this
      ensures Valid() && nextId == old(nextId)
      ensures outcome == MissingToken <==> PhpEmptyString(token)
      ensures outcome != AlreadyConfirmed
      ensures outcome.Confirmed? ==>
        outcome.id in old(bookings) &&
        var b := old(bookings)[outcome.id];
        && CarriesToken(b, token, Pending)
        && Unexpired(b, lookupNow) && Unexpired(b, now)
        && bookings == old(bookings)[outcome.id := ConfirmedBooking(b)]
        && ledger == LedgerAfterUpdate(old(ledger), b.movieId, b.showtimeKey, b.seats, [])
      ensures outcome.TokenExpired? ==>
        && outcome.id in old(bookings)
        && CarriesToken(old(bookings)[outcome.id], token, Pending)
        && Unexpired(old(bookings)[outcome.id], lookupNow) && !Unexpired(old(bookings)[outcome.id], now)
        && lookupNow < now
        && bookings == old(bookings) - {outcome.id}
        && ledger == old(ledger)
      ensures outcome == MissingToken || outcome == InvalidToken ==>
        bookings == old(bookings) && ledger == old(ledger)
      ensures outcome == InvalidToken ==>
        || (forall id :: id in bookings ==> !CarriesToken(bookings[id], token, Pending))
        || (exists id :: id in bookings && CarriesToken(bookings[id], token, Pending) && !Unexpired(bookings[id], lookupNow))
    {
      if PhpEmptyString(token) {
        return MissingToken;
      }
      var found := FindBookingByToken(token, Pending, false, lookupNow);
      if found.None? {
        var confirmedBefore := FindBookingByToken(token, Publish, true, lookupNow);
        if confirmedBefore.Some? {
          // unreachable: a published booking no longer carries its token
          assert false;
          return AlreadyConfirmed;
        }
        return InvalidToken;
      }
      var id := found.value;
      if now > bookings[id].expiration.value {
        // wp_delete_post($booking_id, true)
        bookings := bookings - {id};
        return TokenExpired(id);
      }
      PublishBooking(id);
      outcome := Confirmed(id);
    }

    /**
     * The successful part of confirmation: `wp_update_post` to `publish`, the seats
     * added to the showtime's ledger entry, then the token and expiry meta deleted.
     */
    method PublishBooking(id: int)
      requires Valid() && id in bookings && bookings[id].status == Pending
      modifies this
      ensures Valid() && nextId == old(nextId)
      ensures bookings == old(bookings)[id := ConfirmedBooking(old(bookings)[id])]
      ensures ledger == LedgerAfterUpdate(old(ledger), old(bookings)[id].movieId, old(bookings)[id].showtimeKey, old(bookings)[id].seats, [])
    {
      var b := bookings[id];
      ghost var before := bookings;
      bookings := bookings[id := b.(status := Publish)];
      var _ := UpdateOccupiedSeats(b.movieId, b.showtimeKey, b.seats, []);
      // delete_post_meta of the token and of the expiry
      bookings := bookings[id := ConfirmedBooking(b)];
      OverwriteEntry(before, id, b.(status := Publish), ConfirmedBooking(b));
      ConfirmedStaysWellFormed(b);
      forall k | k in bookings
        ensures 0 < k < nextId && WellFormed(bookings[k])
      {
        assert k in before;
      }
      forall k | k in ledger
        ensures NoDup(ledger[k])
      {
        if k != (b.movieId, b.showtimeKey) {
          assert k in old(ledger);
        }
      }
    }

    /** `baaria_check_confirmation_token_request_v6`: a read-only preview of a pending booking. */
    method CheckToken(token: string, lookupNow: int, now: int) returns (outcome: CheckOutcome)
      requires Valid()
      ensures outcome != CheckAlreadyConfirmed
      ensures outcome.TokenUsable? ==>
        var id := outcome.details.id;
        && id in bookings
        && CarriesToken(bookings[id], token, Pending)
        && Unexpired(bookings[id], lookupNow) && Unexpired(bookings[id], now)
        && outcome.details == BookingDetails(id, bookings[id].name, bookings[id].email, bookings[id].phone,
             bookings[id].movieId, bookings[id].projectionId, bookings[id].showtimeKey, bookings[id].seats)
      ensures outcome.CheckTokenExpired? ==>
        && lookupNow < now
        && exists id :: id in bookings && CarriesToken(bookings[id], token, Pending) &&
             Unexpired(bookings[id], lookupNow) && !Unexpired(bookings[id], now)
      ensures outcome.CheckInvalidToken? ==>
        || (forall id :: id in bookings ==> !CarriesToken(bookings[id], token, Pending))
        || (exists id :: id in bookings && CarriesToken(bookings[id], token, Pending) && !Unexpired(bookings[id], lookupNow))
    {
      var found := FindBookingByToken(token, Pending, false, lookupNow);
      if found.None? {
        var confirmedBefore := FindBookingByToken(token, Publish, true, lookupNow);
        if confirmedBefore.Some? {
          assert false;
          return CheckAlreadyConfirmed;
        }
        return CheckInvalidToken;
      }
      var id := found.value;
      var b := bookings[id];
      if now > b.expiration.value {
        assert CarriesToken(bookings[id], token, Pending) && !Unexpired(bookings[id], now);
        return CheckTokenExpired;
      }
      outcome := TokenUsable(BookingDetails(id, b.name, b.email, b.phone, b.movieId, b.projectionId, b.showtimeKey, b.seats));
    }

    /** `baaria_handle_delete_booking_request_v6` (admin only; the permission check is the transport's). */
    method DeleteBooking(id: int) returns (outcome: DeleteOutcome)
      requires Valid()
      modifies this
      ensures Valid() && nextId == old(nextId)
      ensures outcome == InvalidBookingId <==> id == 0 || id !in old(bookings)
      ensures outcome == InvalidBookingId ==> bookings == old(bookings) && ledger == old(ledger)
      ensures outcome == Deleted ==> bookings == old(bookings) - {id}
      ensures outcome == Deleted && old(bookings)[id].status == Publish ==>
        ledger == LedgerAfterUpdate(old(ledger), old(bookings)[id].movieId, old(bookings)[id].showtimeKey, [], old(bookings)[id].seats)
      ensures outcome == Deleted && old(bookings)[id].status == Pending ==> ledger == old(ledger)
    {
      if id == 0 || id !in bookings {
        return InvalidBookingId;
      }
      var b := bookings[id];
      bookings := bookings - {id};
      if b.status == Publish && b.movieId != 0 && !PhpEmptyString(b.showtimeKey) {
        var _ := UpdateOccupiedSeats(b.movieId, b.showtimeKey, [], b.seats);
      }
      outcome := Deleted;
    }
  }
}

=== FILE: checkout.dfy ===
/**
 * The checkout form: validation of the customer's name, e-mail and phone,
 * the booking request it sends, and what happens with the server's answer.
 */
module Checkout {
  import opened Wrappers
  import opened JsText
  import opened EventPayload

  /** The three inputs of the form, as typed. */
  datatype CustomerInfo = CustomerInfo(name: string, email: string, phone: string)

  /** The error text shown under each input and under the submit button ("" is no error). */
  datatype FormErrors = FormErrors(name: string, email: string, phone: string, submit: string)

  const NoErrors := FormErrors("", "", "", "")
  const NameRequired := "Il nome è obbligatorio"
  const EmailRequired := "L'email è obbligatoria"
  const EmailInvalid := "Email non valida"
  const PhoneRequired := "Il telefono è obbligatorio"
  const SubmitFailedDefault := "Errore durante l'invio della prenotazione."
  const ConnectionFailedDefault := "Errore di connessione o durante l'invio."

  /** A JavaScript text field is blank when `value.trim()` is the empty (falsy) string. */
  predicate Blank(s: string) {
    Trim(s) == []
  }

  /**
   * A match of `\S+@\S+\.\S+` with its `@` at p and its `.` at q: a non-space
   * character before the `@`, a non-empty run of non-space characters between
   * the `@` and the `.`, and a non-space character after the `.`.
   */
  predicate EmailShapeAt(s: string, p: int, q: int) {
    1 <= p && p + 2 <= q && q + 1 < |s| &&
    s[p] == '@' && s[q] == '.' &&
    !IsJsSpace(s[p - 1]) && !IsJsSpace(s[q + 1]) &&
    forall k :: p < k < q ==> !IsJsSpace(s[k])
  }

  /** `/\S+@\S+\.\S+/.test(s)`: the pattern is not anchored, so a match anywhere will do. */
  function MatchesEmailPattern(s: string): (r: bool)
    ensures r ==> |s| >= 5 && '@' in s && '.' in s
  {
    exists p, q | 0 <= p < |s| && 0 <= q < |s| :: EmailShapeAt(s, p, q)
  }

  /** A match lies inside a run of non-space characters, so white space at either end cannot matter. */
  lemma ShapeInInnerSlice(s: string, o: nat, u: string)
    requires o + |u| <= |s| && u == s[o..o + |u|]
    requires forall i :: 0 <= i < o ==> IsJsSpace(s[i])
    requires forall i :: o + |u| <= i < |s| ==> IsJsSpace(s[i])
    ensures MatchesEmailPattern(s) <==> MatchesEmailPattern(u)
  {
    if MatchesEmailPattern(s) {
      var p, q :| 0 <= p < |s| && 0 <= q < |s| && EmailShapeAt(s, p, q);
      if p - 1 < o {
        assert false;
      }
      if o + |u| <= q + 1 {
        assert false;
      }
      assert EmailShapeAt(u, p - o, q - o);
    }
    if MatchesEmailPattern(u) {
      var p, q :| 0 <= p < |u| && 0 <= q < |u| && EmailShapeAt(u, p, q);
      assert EmailShapeAt(s, p + o, q + o);
    }
  }

  /** The pattern is tested on the untrimmed e-mail, yet the verdict is the same as on the trimmed one. */
  lemma EmailPatternIgnoresSurroundingSpace(email: string)
    ensures MatchesEmailPattern(email) <==> MatchesEmailPattern(Trim(email))
  {
    var u := Trim(email);
    var o := TrimIsInnerSlice(email);
    ShapeInInnerSlice(email, o, u);
  }

  /** Text matching the pattern is never blank. */
  lemma MatchIsNotBlank(email: string)
    requires MatchesEmailPattern(email)
    ensures !Blank(email)
  {
    var p, q :| 0 <= p < |email| && 0 <= q < |email| && EmailShapeAt(email, p, q);
    assert !IsJsSpace(email[p]) by {
      assert email[p] == '@';
    }
    TrimEmptyIffAllSpace(email);
    assert !AllSpace(email);
  }

  /** The error under the e-mail input: required when blank, otherwise invalid when the pattern fails. */
  function EmailError(email: string): (e: string)
    ensures e == EmailRequired <==> Blank(email)
    ensures e == EmailInvalid <==> !Blank(email) && !MatchesEmailPattern(email)
    ensures e == "" <==> !Blank(email) && MatchesEmailPattern(email)
  {
    if Blank(email) then EmailRequired
    else if !MatchesEmailPattern(email) then EmailInvalid
    else ""
  }

  /** The errors `validateForm` shows: every field is judged on its own, the submit error is cleared. */
  function FieldErrors(info: CustomerInfo): (errors: FormErrors)
    ensures errors.name == (if Blank(info.name) then NameRequired else "")
    ensures errors.email == EmailError(info.email)
    ensures errors.phone == (if Blank(info.phone) then PhoneRequired else "")
    ensures errors.submit == ""
  {
    FormErrors(
      if Blank(info.name) then NameRequired else "",
      EmailError(info.email),
      if Blank(info.phone) then PhoneRequired else "",
      "")
  }

  /** When the form may be sent: a name, a phone and an e-mail of the expected shape. */
  predicate FormIsValid(info: CustomerInfo) {
    !Blank(info.name) && !Blank(info.email) && MatchesEmailPattern(info.email) && !Blank(info.phone)
  }

  /** The form is valid exactly when no field shows an error. */
  lemma ValidIffNoErrors(info: CustomerInfo)
    ensures FormIsValid(info) <==> FieldErrors(info) == NoErrors
  {
  }

  /** The blank check on the e-mail is implied by the pattern: validity needs only the pattern. */
  lemma ValidIffFilledAndShaped(info: CustomerInfo)
    ensures FormIsValid(info) <==>
      !Blank(info.name) && !Blank(info.phone) && MatchesEmailPattern(Trim(info.email))
  {
    EmailPatternIgnoresSurroundingSpace(info.email);
    if MatchesEmailPattern(info.email) {
      MatchIsNotBlank(info.email);
    }
  }

  /** `validateForm`: fills a fresh error record field by field and clears a flag on every failure. */
  method ValidateForm(info: CustomerInfo) returns (valid: bool, errors: FormErrors)
    ensures errors == FieldErrors(info)
    ensures valid <==> FormIsValid(info)
  {
    valid := true;
    errors := NoErrors;
    if Blank(info.name) {
      errors := errors.(name := NameRequired);
      valid := false;
    }
    if Blank(info.email) {
      errors := errors.(email := EmailRequired);
      valid := false;
    } else if !MatchesEmailPattern(info.email) {
      errors := errors.(email := EmailInvalid);
      valid := false;
    }
    if Blank(info.phone) {
      errors := errors.(phone := PhoneRequired);
      valid := false;
    }
  }

  /** The body of the booking request. */
  datatype BookingPayload = BookingPayload(
    name: string,
    email: string,
    phone: string,
    movieId: JsValue,
    proiezioneId: JsValue,
    locationNome: JsValue,
    locationIndirizzo: JsValue,
    showtimeDesc: JsValue,
    showtimeKey: JsValue,
    seats: seq<string>)

  /** The request body: the form as typed, the event's id, the projection's fields and the seats. */
  function BuildPayload(info: CustomerInfo, event: Event, projection: Projection, seats: seq<string>): (b: BookingPayload)
    ensures b.seats == seats && b.movieId == event.id
    ensures b.name == info.name && b.email == info.email && b.phone == info.phone
    ensures b.proiezioneId == projection.proiezioneId && b.showtimeKey == projection.showtimeKey
    ensures b.locationNome == projection.locationNome && b.locationIndirizzo == projection.locationIndirizzo
    ensures b.showtimeDesc == projection.showtimeDesc
  {
    BookingPayload(info.name, info.email, info.phone, event.id, projection.proiezioneId,
      projection.locationNome, projection.locationIndirizzo, projection.showtimeDesc,
      projection.showtimeKey, seats)
  }

  /**
   * What the request returns: an answer with `success` and `message`, or a
   * failed request whose `error.response?.data?.message` may be `undefined`.
   */
  datatype ServerReply = Answered(success: bool, message: JsValue) | RequestFailed(message: JsValue)

  /** The outcome of submitting the form. */
  datatype SubmitOutcome =
    | NotSent(errors: FormErrors)
    | Succeeded(payload: BookingPayload, notifiedEmail: string)
    | Failed(payload: BookingPayload, submitError: JsValue)

  /**
   * `handleSubmit`: nothing is sent unless validation passes; on success the
   * parent is told the e-mail as typed; otherwise the server's message, or a
   * default when it is missing or empty, is shown under the submit button.
   */
  function Submit(info: CustomerInfo, event: Event, projection: Projection, seats: seq<string>, reply: ServerReply): (o: SubmitOutcome)
    ensures o.NotSent? <==> !FormIsValid(info)
    ensures o.NotSent? ==> o.errors == FieldErrors(info) && o.errors != NoErrors
    ensures !o.NotSent? ==> o.payload == BuildPayload(info, event, projection, seats)
    ensures o.Succeeded? <==> FormIsValid(info) && reply.Answered? && reply.success
    ensures o.Succeeded? ==> o.notifiedEmail == info.email
    ensures o.Failed? ==> Truthy(o.submitError)
    ensures o.Failed? && Truthy(reply.message) ==> o.submitError == reply.message
  {
    if !FormIsValid(info) then NotSent(FieldErrors(info))
    else
      var payload := BuildPayload(info, event, projection, seats);
      match reply
      case Answered(success, message) =>
        if success then Succeeded(payload, info.email)
        else Failed(payload, Or(message, Str(SubmitFailedDefault)))
      case RequestFailed(message) =>
        Failed(payload, Or(message, Str(ConnectionFailedDefault)))
  }
}

=== FILE: decimal.dfy ===
/**
 * Decimal rendering of integers, as PHP's string concatenation and JavaScript's
 * template literals print them (`$movie_id . '_'`, `${row}${col}`), and the
 * digit-string parser that inverts it.
 */
module Decimal {

  predicate IsDigit(c: char) {
    '0' <= c <= '9'
  }

  predicate AllDigits(s: string) {
    forall i :: 0 <= i < |s| ==> IsDigit(s[i])
  }

  function DigitChar(d: nat): (c: char)
    requires d < 10
    ensures IsDigit(c)
  {
    ('0' as int + d) as char
  }

  function DigitValue(c: char): (d: nat)
    requires IsDigit(c)
    ensures d < 10 && DigitChar(d) == c
  {
    c as int - '0' as int
  }

  /** The shortest decimal numeral of n: no sign, no leading zero. */
  function NatToString(n: nat): (s: string)
    ensures |s| >= 1 && AllDigits(s)
    ensures |s| > 1 ==> s[0] != '0'
    decreases n
  {
    if n < 10 then [DigitChar(n)] else NatToString(n / 10) + [DigitChar(n % 10)]
  }

  /** The value of a string of decimal digits (most significant first). */
  function DigitsValue(s: string): nat
    requires AllDigits(s)
  {
    if s == [] then 0 else DigitsValue(s[..|s| - 1]) * 10 + DigitValue(s[|s| - 1])
  }

  lemma {:induction false} DigitsValueOfNatToString(n: nat)
    ensures DigitsValue(NatToString(n)) == n
    decreases n
  {
    if n >= 10 {
      var s := NatToString(n);
      assert s[..|s| - 1] == NatToString(n / 10);
      DigitsValueOfNatToString(n / 10);
    }
  }

  lemma NatToStringInjective(a: nat, b: nat)
    requires NatToString(a) == NatToString(b)
    ensures a == b
  {
    DigitsValueOfNatToString(a);
    DigitsValueOfNatToString(b);
  }

  /** An integer as PHP prints it: a minus sign before the digits of a negative value. */
  function IntToString(i: int): (s: string)
    ensures s != [] && '_' !in s
    ensures i >= 0 <==> AllDigits(s)
  {
    if i < 0 then
      var s := "-" + NatToString(-i);
      assert !IsDigit(s[0]);
      s
    else
      NatToString(i)
  }

  lemma IntToStringInjective(a: int, b: int)
    requires IntToString(a) == IntToString(b)
    ensures a == b
  {
    if a < 0 && b < 0 {
      assert NatToString(-a) == IntToString(a)[1..];
      assert NatToString(-b) == IntToString(b)[1..];
      NatToStringInjective(-a, -b);
    } else if a >= 0 && b >= 0 {
      NatToStringInjective(a, b);
    }
  }
}

=== FILE: event_payload.dfy ===
/**
 * Normalisation of a `movie` record from the WordPress REST API into the
 * client's event shape: every missing field gets its default through
 * JavaScript's `||`, and the list of projections is mapped one to one.
 *
 * The payload is an untyped JSON-like value. Property access on `null` or
 * `undefined`, and `.map` on something that is not an array, throw a
 * `TypeError` in JavaScript; the model returns `None` for those inputs.
 */
module EventPayload {
  import opened Wrappers

  /** A JavaScript value as it arrives from `JSON` (numbers are integers here). */
  datatype JsValue =
    | Undefined
    | Null
    | Bool(b: bool)
    | Num(n: int)
    | Str(s: string)
    | Arr(items: seq<JsValue>)
    | Obj(fields: map<string, JsValue>)

  /** JavaScript truthiness: `undefined`, `null`, `false`, `0` and `''` are falsy. */
  predicate Truthy(v: JsValue) {
    match v
    case Undefined => false
    case Null => false
    case Bool(b) => b
    case Num(n) => n != 0
    case Str(s) => s != ""
    case Arr(_) => true
    case Obj(_) => true
  }

  predicate Nullish(v: JsValue) {
    v == Undefined || v == Null
  }

  /** `a || b`: the left operand when it is truthy, the right one otherwise. */
  function Or(a: JsValue, b: JsValue): (r: JsValue)
    ensures Truthy(a) ==> r == a
    ensures !Truthy(a) ==> r == b
  {
    if Truthy(a) then a else b
  }

  /** `v.key` on a value that is not `null` or `undefined`: absent keys read as `undefined`. */
  function Get(v: JsValue, key: string): (r: JsValue)
    requires !Nullish(v)
    ensures v.Obj? && key in v.fields ==> r == v.fields[key]
    ensures !(v.Obj? && key in v.fields) ==> r == Undefined
  {
    if v.Obj? && key in v.fields then v.fields[key] else Undefined
  }

  /** `!!v`. */
  function ToBool(v: JsValue): bool {
    Truthy(v)
  }

  const DefaultLocationType := Str("cinema_capitol")
  const MissingTitle := Str("Titolo Mancante")
  const DefaultPoster := Str("https://placehold.co/300x450/333333/EAA949?text=Poster")
  const DefaultCategory := Str("Generale")
  const DefaultMainLocation := Str("Sede da definire")

  /** `ProgrammazioneItem`: one projection of a film. */
  datatype Projection = Projection(
    proiezioneId: JsValue,
    dataRaw: JsValue,
    dataFormattata: JsValue,
    orario: JsValue,
    datetimeSortKey: JsValue,
    locationNome: JsValue,
    locationIndirizzo: JsValue,
    locationCitta: JsValue,
    note: JsValue,
    showtimeKey: JsValue,
    showtimeDesc: JsValue,
    locationType: JsValue,
    vipSeats: JsValue,
    disabledSeats: JsValue)

  /** `EventDetails`: the film's descriptive fields and its projections. */
  datatype EventDetails = EventDetails(
    id: JsValue,
    title: JsValue,
    sinossi: JsValue,
    descrizioneCompleta: JsValue,
    locandinaUrl: JsValue,
    trailerVideoUrl: JsValue,
    cast: JsValue,
    durataMinuti: JsValue,
    regia: JsValue,
    annoProduzione: JsValue,
    tipoFilm: JsValue,
    galleriaImmagini: JsValue,
    montaggio: JsValue,
    fotografia: JsValue,
    musica: JsValue,
    genere: JsValue,
    locationProduzione: JsValue,
    sceneggiatura: JsValue,
    coproduzione: JsValue,
    casaProduzione: JsValue,
    paeseProduzione: JsValue,
    programmazione: seq<Projection>,
    bookingsEnabled: bool,
    bookingNotRequired: bool,
    bookingStatusMessage: JsValue,
    categoriaEvento: JsValue,
    descrizioneBreve: JsValue,
    locationPrincipale: JsValue)

  /** `BaariaEvent`: the event the pages work with. */
  datatype Event = Event(
    id: JsValue,
    slug: JsValue,
    title: JsValue,
    eventDetails: EventDetails,
    genere: JsValue,
    durataMinuti: JsValue)

  /** The mapping applied to one element of `programmazione`. */
  function ParseProjection(prog: JsValue): (p: Option<Projection>)
    ensures p.None? <==> Nullish(prog)
    ensures p.Some? ==> p.value.proiezioneId == Get(prog, "proiezione_id")
    ensures p.Some? ==> p.value.showtimeKey == Get(prog, "showtime_key")
    ensures p.Some? && !Truthy(Get(prog, "location_type")) ==> p.value.locationType == DefaultLocationType
    ensures p.Some? && Truthy(Get(prog, "location_type")) ==> p.value.locationType == Get(prog, "location_type")
    ensures p.Some? && !Truthy(Get(prog, "vip_seats")) ==> p.value.vipSeats == Arr([])
    ensures p.Some? && !Truthy(Get(prog, "disabled_seats")) ==> p.value.disabledSeats == Arr([])
  {
    if Nullish(prog) then None
    else Some(Projection(
      Get(prog, "proiezione_id"),
      Get(prog, "data_raw"),
      Get(prog, "data_formattata"),
      Get(prog, "orario"),
      Get(prog, "datetime_sort_key"),
      Get(prog, "location_nome"),
      Get(prog, "location_indirizzo"),
      Get(prog, "location_citta"),
      Get(prog, "note"),
      Get(prog, "showtime_key"),
      Get(prog, "showtime_desc"),
      Or(Get(prog, "location_type"), DefaultLocationType),
      Or(Get(prog, "vip_seats"), Arr([])),
      Or(Get(prog, "disabled_seats"), Arr([]))))
  }

  /** `items.map(...)`: fails as soon as one element is `null` or `undefined`. */
  function MapProjections(items: seq<JsValue>): (r: Option<seq<Projection>>)
    ensures r.Some? <==> forall i :: 0 <= i < |items| ==> !Nullish(items[i])
    ensures r.Some? ==> |r.value| == |items|
    ensures r.Some? ==> forall i :: 0 <= i < |items| ==> ParseProjection(items[i]) == Some(r.value[i])
  {
    if items == [] then Some([])
    else
      match (MapProjections(items[..|items| - 1]), ParseProjection(items[|items| - 1]))
      case (Some(front), Some(last)) => Some(front + [last])
      case _ => None
  }

  /**
   * `(details.programmazione || []).map(...)`: a falsy value maps to no
   * projections, an array maps element by element, anything else has no
   * `map` method.
   */
  function ParseProgrammazione(raw: JsValue): (r: Option<seq<Projection>>)
    ensures !Truthy(raw) ==> r == Some([])
    ensures Truthy(raw) && !raw.Arr? ==> r.None?
    ensures raw.Arr? ==> r == MapProjections(raw.items)
  {
    match Or(raw, Arr([]))
    case Arr(items) => MapProjections(items)
    case _ => None
  }

  /** `details.bookings_enabled === undefined ? true : !!details.bookings_enabled`. */
  function BookingsEnabled(raw: JsValue): (enabled: bool)
    ensures raw == Undefined ==> enabled
    ensures raw != Undefined ==> enabled == Truthy(raw)
  {
    if raw == Undefined then true else ToBool(raw)
  }

  /** `eventPayload.title?.rendered`. */
  function RenderedTitle(payload: JsValue): (r: JsValue)
    requires !Nullish(payload)
    ensures Nullish(Get(payload, "title")) ==> r == Undefined
    ensures !Nullish(Get(payload, "title")) ==> r == Get(Get(payload, "title"), "rendered")
  {
    var title := Get(payload, "title");
    if Nullish(title) then Undefined else Get(title, "rendered")
  }

  /** The details object the event is read from: `eventPayload.event_details || {}`. */
  function DetailsOf(payload: JsValue): (d: JsValue)
    requires !Nullish(payload)
    ensures !Nullish(d)
  {
    Or(Get(payload, "event_details"), Obj(map[]))
  }

  /**
   * The `eventDetailsData` literal: every field read from the details object with
   * its `||` default; the id falls back to the payload's, the title to the
   * rendered title and then to 'Titolo Mancante'.
   */
  function NormaliseDetails(details: JsValue, payloadId: JsValue, renderedTitle: JsValue,
                            programmazione: seq<Projection>): (d: EventDetails)
    requires !Nullish(details)
    ensures Truthy(d.title)
    ensures Truthy(Get(details, "title")) ==> d.title == Get(details, "title")
    ensures !Truthy(Get(details, "title")) && Truthy(renderedTitle) ==> d.title == renderedTitle
    ensures !Truthy(Get(details, "title")) && !Truthy(renderedTitle) ==> d.title == MissingTitle
    ensures Truthy(Get(details, "id")) ==> d.id == Get(details, "id")
    ensures !Truthy(Get(details, "id")) ==> d.id == payloadId
    ensures Get(details, "bookings_enabled") == Undefined ==> d.bookingsEnabled
    ensures Get(details, "bookings_enabled") != Undefined ==> d.bookingsEnabled == Truthy(Get(details, "bookings_enabled"))
    ensures d.bookingNotRequired == Truthy(Get(details, "booking_not_required"))
    ensures d.programmazione == programmazione
  {
    EventDetails(
      Or(Get(details, "id"), payloadId),
      Or(Get(details, "title"), Or(renderedTitle, MissingTitle)),
      Or(Get(details, "sinossi"), Null),
      Or(Get(details, "descrizione_completa"), Null),
      Or(Get(details, "locandina_url"), DefaultPoster),
      Or(Get(details, "trailer_video_url"), Null),
      Or(Get(details, "cast"), Null),
      Or(Get(details, "durata_minuti"), Num(0)),
      Or(Get(details, "regia"), Null),
      Or(Get(details, "anno_produzione"), Null),
      Or(Get(details, "tipo_film"), Null),
      Or(Get(details, "galleria_immagini"), Arr([])),
      Or(Get(details, "montaggio"), Null),
      Or(Get(details, "fotografia"), Null),
      Or(Get(details, "musica"), Null),
      Or(Get(details, "genere"), Null),
      Or(Get(details, "location_produzione"), Null),
      Or(Get(details, "sceneggiatura"), Null),
      Or(Get(details, "coproduzione"), Null),
      Or(Get(details, "casa_produzione"), Null),
      Or(Get(details, "paese_produzione"), Null),
      programmazione,
      BookingsEnabled(Get(details, "bookings_enabled")),
      ToBool(Get(details, "booking_not_required")),
      Or(Get(details, "booking_status_message"), Str("")),
      Or(Get(details, "categoria_evento"), DefaultCategory),
      Or(Get(details, "descrizione_breve"), Str("")),
      Or(Get(details, "location_principale"), DefaultMainLocation))
  }

  /** `parseEventData`. */
  function ParseEventData(payload: JsValue): (e: Option<Event>)
    ensures e.Some? <==> !Nullish(payload) && ParseProgrammazione(Get(DetailsOf(payload), "programmazione")).Some?
    ensures e.Some? ==> e.value.id == Get(payload, "id") && e.value.title == Get(payload, "title")
    ensures e.Some? ==> e.value.durataMinuti == e.value.eventDetails.durataMinuti
    ensures e.Some? && !Truthy(Get(DetailsOf(payload), "durata_minuti")) ==> e.value.durataMinuti == Num(0)
    ensures e.Some? && Truthy(Get(DetailsOf(payload), "title")) ==>
      e.value.eventDetails.title == Get(DetailsOf(payload), "title")
    ensures e.Some? && !Truthy(Get(DetailsOf(payload), "title")) && Truthy(RenderedTitle(payload)) ==>
      e.value.eventDetails.title == RenderedTitle(payload)
    ensures e.Some? && !Truthy(Get(DetailsOf(payload), "title")) && !Truthy(RenderedTitle(payload)) ==>
      e.value.eventDetails.title == MissingTitle
    ensures e.Some? && Get(DetailsOf(payload), "bookings_enabled") == Undefined ==> e.value.eventDetails.bookingsEnabled
    ensures e.Some? && Get(DetailsOf(payload), "bookings_enabled") != Undefined ==>
      e.value.eventDetails.bookingsEnabled == Truthy(Get(DetailsOf(payload), "bookings_enabled"))
    ensures e.Some? ==>
      e.value.eventDetails.bookingNotRequired == Truthy(Get(DetailsOf(payload), "booking_not_required"))
    ensures e.Some? && !Truthy(Get(DetailsOf(payload), "programmazione")) ==> e.value.eventDetails.programmazione == []
    ensures e.Some? && Get(DetailsOf(payload), "programmazione").Arr? ==>
      e.value.eventDetails.programmazione == MapProjections(Get(DetailsOf(payload), "programmazione").items).value
  {
    if Nullish(payload) then None
    else
      var details := DetailsOf(payload);
      match ParseProgrammazione(Get(details, "programmazione"))
      case None => None
      case Some(programmazione) =>
        Some(Event(
          Get(payload, "id"),
          Get(payload, "slug"),
          Get(payload, "title"),
          NormaliseDetails(details, Get(payload, "id"), RenderedTitle(payload), programmazione),
          Or(Get(details, "genere"), Null),
          Or(Get(details, "durata_minuti"), Num(0))))
  }

  /** A falsy `title` has no `rendered` field to fall back on: `title?.rendered` is falsy too. */
  lemma FalsyTitleHasNoRenderedTitle(payload: JsValue)
    requires !Nullish(payload) && !Truthy(Get(payload, "title"))
    ensures !Truthy(RenderedTitle(payload))
  {
  }

  /** A projection written back as a JSON object, with the keys the API uses. */
  function ProjectionToJs(p: Projection): JsValue {
    Obj(map[
      "proiezione_id" := p.proiezioneId,
      "data_raw" := p.dataRaw,
      "data_formattata" := p.dataFormattata,
      "orario" := p.orario,
      "datetime_sort_key" := p.datetimeSortKey,
      "location_nome" := p.locationNome,
      "location_indirizzo" := p.locationIndirizzo,
      "location_citta" := p.locationCitta,
      "note" := p.note,
      "showtime_key" := p.showtimeKey,
      "showtime_desc" := p.showtimeDesc,
      "location_type" := p.locationType,
      "vip_seats" := p.vipSeats,
      "disabled_seats" := p.disabledSeats])
  }

  /** The fields a parsed projection always has filled in. */
  predicate NormalProjection(p: Projection) {
    Truthy(p.locationType) && Truthy(p.vipSeats) && Truthy(p.disabledSeats)
  }

  /** Every projection that comes out of the mapping has its defaults filled in. */
  lemma ParsedProjectionIsNormal(prog: JsValue)
    requires ParseProjection(prog).Some?
    ensures NormalProjection(ParseProjection(prog).value)
  {
  }

  // ProjectionLookups1-3 only split the key lookups of ProjectionToJs into small
  // proof obligations, each cheap for the solver; ReparseProjection combines them.
  lemma ProjectionLookups1(p: Projection)
    ensures var js := ProjectionToJs(p);
      Get(js, "proiezione_id") == p.proiezioneId &&
      Get(js, "data_raw") == p.dataRaw &&
      Get(js, "data_formattata") == p.dataFormattata &&
      Get(js, "orario") == p.orario &&
      Get(js, "datetime_sort_key") == p.datetimeSortKey
  {
    var js := ProjectionToJs(p);
    assert Get(js, "proiezione_id") == p.proiezioneId by {}
    assert Get(js, "data_raw") == p.dataRaw by {}
    assert Get(js, "data_formattata") == p.dataFormattata by {}
    assert Get(js, "orario") == p.orario by {}
    assert Get(js, "datetime_sort_key") == p.datetimeSortKey by {}
  }

  lemma ProjectionLookups2(p: Projection)
    ensures var js := ProjectionToJs(p);
      Get(js, "location_nome") == p.locationNome &&
      Get(js, "location_indirizzo") == p.locationIndirizzo &&
      Get(js, "location_citta") == p.locationCitta &&
      Get(js, "note") == p.note &&
      Get(js, "showtime_key") == p.showtimeKey
  {
    var js := ProjectionToJs(p);
    assert Get(js, "location_nome") == p.locationNome by {}
    assert Get(js, "location_indirizzo") == p.locationIndirizzo by {}
    assert Get(js, "location_citta") == p.locationCitta by {}
    assert Get(js, "note") == p.note by {}
    assert Get(js, "showtime_key") == p.showtimeKey by {}
  }

  lemma ProjectionLookups3(p: Projection)
    ensures var js := ProjectionToJs(p);
      Get(js, "showtime_desc") == p.showtimeDesc &&
      Get(js, "location_type") == p.locationType &&
      Get(js, "vip_seats") == p.vipSeats &&
      Get(js, "disabled_seats") == p.disabledSeats
  {
    var js := ProjectionToJs(p);
    assert Get(js, "showtime_desc") == p.showtimeDesc by {}
    assert Get(js, "location_type") == p.locationType by {}
    assert Get(js, "vip_seats") == p.vipSeats by {}
    assert Get(js, "disabled_seats") == p.disabledSeats by {}
  }

  /** Normalising a projection that is already normal gives it back unchanged. */
  lemma ReparseProjection(p: Projection)
    requires NormalProjection(p)
    ensures ParseProjection(ProjectionToJs(p)) == Some(p)
  {
    ProjectionLookups1(p);
    ProjectionLookups2(p);
    ProjectionLookups3(p);
  }

  function ProjectionsToJs(ps: seq<Projection>): (r: seq<JsValue>)
    ensures |r| == |ps|
    ensures forall i :: 0 <= i < |ps| ==> r[i] == ProjectionToJs(ps[i])
  {
    if ps == [] then [] else ProjectionsToJs(ps[..|ps| - 1]) + [ProjectionToJs(ps[|ps| - 1])]
  }

  /** Mapping a list of normal projections written back as JSON gives the same list. */
  lemma {:induction false} ReparseProjections(ps: seq<Projection>)
    requires forall i :: 0 <= i < |ps| ==> NormalProjection(ps[i])
    ensures MapProjections(ProjectionsToJs(ps)) == Some(ps)
    decreases |ps|
  {
    if ps != [] {
      var front := ps[..|ps| - 1];
      ReparseProjections(front);
      ReparseProjection(ps[|ps| - 1]);
      var js := ProjectionsToJs(ps);
      assert js[..|js| - 1] == ProjectionsToJs(front);
      assert front + [ps[|ps| - 1]] == ps;
    }
  }

  /** The keys of an event-details object. */
  const DetailsKeys: set<string> := {"id", "title", "sinossi", "descrizione_completa", "locandina_url", "trailer_video_url", "cast", "durata_minuti", "regia", "anno_produzione", "tipo_film", "galleria_immagini", "montaggio", "fotografia", "musica", "genere", "location_produzione", "sceneggiatura", "coproduzione", "casa_produzione", "paese_produzione", "programmazione", "bookings_enabled", "booking_not_required", "booking_status_message", "categoria_evento", "descrizione_breve", "location_principale"}

  /**
   * The value an event-details object holds under one of its keys. The keys
   * are told apart by their length first, then by their text.
   */
  function DetailsField(d: EventDetails, key: string): JsValue
    requires key in DetailsKeys
  {
    match |key|
    case 2 => d.id
    case 4 => d.cast
    case 5 => if key == "title" then d.title else d.regia
    case 6 => if key == "musica" then d.musica else d.genere
    case 7 => d.sinossi
    case 9 => if key == "tipo_film" then d.tipoFilm else d.montaggio
    case 10 => d.fotografia
    case 12 => d.coproduzione
    case 13 => if key == "locandina_url" then d.locandinaUrl else if key == "durata_minuti" then d.durataMinuti else d.sceneggiatura
    case 14 => Arr(ProjectionsToJs(d.programmazione))
    case 15 => if key == "anno_produzione" then d.annoProduzione else d.casaProduzione
    case 16 => if key == "paese_produzione" then d.paeseProduzione else if key == "bookings_enabled" then Bool(d.bookingsEnabled) else d.categoriaEvento
    case 17 => if key == "trailer_video_url" then d.trailerVideoUrl else if key == "galleria_immagini" then d.galleriaImmagini else d.descrizioneBreve
    case 19 => if key == "location_produzione" then d.locationProduzione else d.locationPrincipale
    case 20 => if key == "descrizione_completa" then d.descrizioneCompleta else Bool(d.bookingNotRequired)
    case 22 => d.bookingStatusMessage
    case _ => Undefined
  }

  /** Event details written back as the JSON object the API sends. */
  function DetailsToJs(d: EventDetails): JsValue {
    Obj(map key | key in DetailsKeys :: DetailsField(d, key))
  }

  /** An event written back as the JSON object the API sends. */
  function EventToJs(e: Event): JsValue {
    Obj(map["id" := e.id, "slug" := e.slug, "title" := e.title, "event_details" := DetailsToJs(e.eventDetails)])
  }

  /** `v` already carries its `|| fallback` default: applying it again changes nothing. */
  predicate Defaulted(v: JsValue, fallback: JsValue) {
    Or(v, fallback) == v
  }

  /** The shape of the details of every event that comes out of `parseEventData`. */
  predicate NormalDetails(d: EventDetails, payloadId: JsValue) {
    (Truthy(d.id) || d.id == payloadId) &&
    Truthy(d.title) &&
    Defaulted(d.sinossi, Null) &&
    Defaulted(d.descrizioneCompleta, Null) &&
    Defaulted(d.trailerVideoUrl, Null) &&
    Defaulted(d.cast, Null) &&
    Defaulted(d.regia, Null) &&
    Defaulted(d.annoProduzione, Null) &&
    Defaulted(d.tipoFilm, Null) &&
    Defaulted(d.montaggio, Null) &&
    Defaulted(d.fotografia, Null) &&
    Defaulted(d.musica, Null) &&
    Defaulted(d.genere, Null) &&
    Defaulted(d.locationProduzione, Null) &&
    Defaulted(d.sceneggiatura, Null) &&
    Defaulted(d.coproduzione, Null) &&
    Defaulted(d.casaProduzione, Null) &&
    Defaulted(d.paeseProduzione, Null) &&
    Defaulted(d.locandinaUrl, DefaultPoster) &&
    Defaulted(d.durataMinuti, Num(0)) &&
    Defaulted(d.galleriaImmagini, Arr([])) &&
    Defaulted(d.bookingStatusMessage, Str("")) &&
    Defaulted(d.categoriaEvento, DefaultCategory) &&
    Defaulted(d.descrizioneBreve, Str("")) &&
    Defaulted(d.locationPrincipale, DefaultMainLocation) &&
    (forall i :: 0 <= i < |d.programmazione| ==> NormalProjection(d.programmazione[i]))
  }

  /** The shape every event that comes out of `parseEventData` has. */
  predicate NormalEvent(e: Event) {
    NormalDetails(e.eventDetails, e.id) &&
    e.genere == e.eventDetails.genere &&
    e.durataMinuti == e.eventDetails.durataMinuti
  }

  /** Every event `parseEventData` produces is normal. */
  lemma ParsedEventIsNormal(payload: JsValue)
    requires ParseEventData(payload).Some?
    ensures NormalEvent(ParseEventData(payload).value)
  {
    var d := ParseEventData(payload).value.eventDetails;
    forall i | 0 <= i < |d.programmazione| ensures NormalProjection(d.programmazione[i]) {
      var items := Get(DetailsOf(payload), "programmazione").items;
      ParsedProjectionIsNormal(items[i]);
    }
  }

  // DetailsLookups1-8 only split the key lookups of DetailsToJs into small
  // proof obligations, each cheap for the solver; DetailsToJsAgrees combines them.
  lemma DetailsLookups1(d: EventDetails)
    ensures var js := DetailsToJs(d);
      Get(js, "id") == d.id &&
      Get(js, "title") == d.title &&
      Get(js, "sinossi") == d.sinossi &&
      Get(js, "descrizione_completa") == d.descrizioneCompleta
  {
    var js := DetailsToJs(d);
    assert Get(js, "id") == d.id by {}
    assert Get(js, "title") == d.title by {}
    assert Get(js, "sinossi") == d.sinossi by {}
    assert Get(js, "descrizione_completa") == d.descrizioneCompleta by {}
  }

  lemma DetailsLookups2(d: EventDetails)
    ensures var js := DetailsToJs(d);
      Get(js, "locandina_url") == d.locandinaUrl &&
      Get(js, "trailer_video_url") == d.trailerVideoUrl &&
      Get(js, "cast") == d.cast &&
      Get(js, "durata_minuti") == d.durataMinuti
  {
    var js := DetailsToJs(d);
    assert Get(js, "locandina_url") == d.locandinaUrl by {}
    assert Get(js, "trailer_video_url") == d.trailerVideoUrl by {}
    assert Get(js, "cast") == d.cast by {}
    assert Get(js, "durata_minuti") == d.durataMinuti by {}
  }

  lemma DetailsLookups3(d: EventDetails)
    ensures var js := DetailsToJs(d);
      Get(js, "regia") == d.regia &&
      Get(js, "anno_produzione") == d.annoProduzione &&
      Get(js, "tipo_film") == d.tipoFilm &&
      Get(js, "galleria_immagini") == d.galleriaImmagini
  {
    var js := DetailsToJs(d);
    assert Get(js, "regia") == d.regia by {}
    assert Get(js, "anno_produzione") == d.annoProduzione by {}
    assert Get(js, "tipo_film") == d.tipoFilm by {}
    assert Get(js, "galleria_immagini") == d.galleriaImmagini by {}
  }

  lemma DetailsLookups4(d: EventDetails)
    ensures var js := DetailsToJs(d);
      Get(js, "montaggio") == d.montaggio &&
      Get(js, "fotografia") == d.fotografia &&
      Get(js, "musica") == d.musica &&
      Get(js, "genere") == d.genere
  {
    var js := DetailsToJs(d);
    assert Get(js, "montaggio") == d.montaggio by {}
    assert Get(js, "fotografia") == d.fotografia by {}
    assert Get(js, "musica") == d.musica by {}
    assert Get(js, "genere") == d.genere by {}
  }

  lemma DetailsLookups5(d: EventDetails)
    ensures var js := DetailsToJs(d);
      Get(js, "location_produzione") == d.locationProduzione &&
      Get(js, "sceneggiatura") == d.sceneggiatura &&
      Get(js, "coproduzione") == d.coproduzione
  {
    var js := DetailsToJs(d);
    assert Get(js, "location_produzione") == d.locationProduzione by {}
    assert Get(js, "sceneggiatura") == d.sceneggiatura by {}
    assert Get(js, "coproduzione") == d.coproduzione by {}
  }

  lemma DetailsLookups6(d: EventDetails)
    ensures var js := DetailsToJs(d);
      Get(js, "casa_produzione") == d.casaProduzione &&
      Get(js, "paese_produzione") == d.paeseProduzione &&
      Get(js, "programmazione") == Arr(ProjectionsToJs(d.programmazione))
  {
    var js := DetailsToJs(d);
    assert Get(js, "casa_produzione") == d.casaProduzione by {}
    assert Get(js, "paese_produzione") == d.paeseProduzione by {}
    assert Get(js, "programmazione") == Arr(ProjectionsToJs(d.programmazione)) by {}
  }

  lemma DetailsLookups7(d: EventDetails)
    ensures var js := DetailsToJs(d);
      Get(js, "bookings_enabled") == Bool(d.bookingsEnabled) &&
      Get(js, "booking_not_required") == Bool(d.bookingNotRequired) &&
      Get(js, "booking_status_message") == d.bookingStatusMessage
  {
    var js := DetailsToJs(d);
    assert Get(js, "bookings_enabled") == Bool(d.bookingsEnabled) by {}
    assert Get(js, "booking_not_required") == Bool(d.bookingNotRequired) by {}
    assert Get(js, "booking_status_message") == d.bookingStatusMessage by {}
  }

  lemma DetailsLookups8(d: EventDetails)
    ensures var js := DetailsToJs(d);
      Get(js, "categoria_evento") == d.categoriaEvento &&
      Get(js, "descrizione_breve") == d.descrizioneBreve &&
      Get(js, "location_principale") == d.locationPrincipale
  {
    var js := DetailsToJs(d);
    assert Get(js, "categoria_evento") == d.categoriaEvento by {}
    assert Get(js, "descrizione_breve") == d.descrizioneBreve by {}
    assert Get(js, "location_principale") == d.locationPrincipale by {}
  }

  /** A details object whose fields read as the fields of d (the projection list aside). */
  predicate DetailsAgree(details: JsValue, d: EventDetails)
    requires !Nullish(details)
  {
    Get(details, "id") == d.id &&
    Get(details, "title") == d.title &&
    Get(details, "sinossi") == d.sinossi &&
    Get(details, "descrizione_completa") == d.descrizioneCompleta &&
    Get(details, "locandina_url") == d.locandinaUrl &&
    Get(details, "trailer_video_url") == d.trailerVideoUrl &&
    Get(details, "cast") == d.cast &&
    Get(details, "durata_minuti") == d.durataMinuti &&
    Get(details, "regia") == d.regia &&
    Get(details, "anno_produzione") == d.annoProduzione &&
    Get(details, "tipo_film") == d.tipoFilm &&
    Get(details, "galleria_immagini") == d.galleriaImmagini &&
    Get(details, "montaggio") == d.montaggio &&
    Get(details, "fotografia") == d.fotografia &&
    Get(details, "musica") == d.musica &&
    Get(details, "genere") == d.genere &&
    Get(details, "location_produzione") == d.locationProduzione &&
    Get(details, "sceneggiatura") == d.sceneggiatura &&
    Get(details, "coproduzione") == d.coproduzione &&
    Get(details, "casa_produzione") == d.casaProduzione &&
    Get(details, "paese_produzione") == d.paeseProduzione &&
    Get(details, "bookings_enabled") == Bool(d.bookingsEnabled) &&
    Get(details, "booking_not_required") == Bool(d.bookingNotRequired) &&
    Get(details, "booking_status_message") == d.bookingStatusMessage &&
    Get(details, "categoria_evento") == d.categoriaEvento &&
    Get(details, "descrizione_breve") == d.descrizioneBreve &&
    Get(details, "location_principale") == d.locationPrincipale
  }

  /** Details written back as JSON read back as the same fields. */
  lemma DetailsToJsAgrees(d: EventDetails)
    ensures DetailsAgree(DetailsToJs(d), d)
  {
    DetailsLookups1(d);
    DetailsLookups2(d);
    DetailsLookups3(d);
    DetailsLookups4(d);
    DetailsLookups5(d);
    DetailsLookups6(d);
    DetailsLookups7(d);
    DetailsLookups8(d);
  }

  /** Normalising a details object that reads as normal details gives those details. */
  lemma NormaliseAgreeing(details: JsValue, d: EventDetails, payloadId: JsValue, renderedTitle: JsValue)
    requires !Nullish(details) && DetailsAgree(details, d) && NormalDetails(d, payloadId)
    ensures NormaliseDetails(details, payloadId, renderedTitle, d.programmazione) == d
  {
  }

  /** Normalising normal details written back as JSON gives them back. */
  lemma ReparseDetails(d: EventDetails, payloadId: JsValue, renderedTitle: JsValue)
    requires NormalDetails(d, payloadId)
    ensures NormaliseDetails(DetailsToJs(d), payloadId, renderedTitle, d.programmazione) == d
  {
    DetailsToJsAgrees(d);
    NormaliseAgreeing(DetailsToJs(d), d, payloadId, renderedTitle);
  }

  /** `parseEventData` is idempotent: normalising a normal event written back as JSON gives it back. */
  lemma ReparseEvent(e: Event)
    requires NormalEvent(e)
    ensures ParseEventData(EventToJs(e)) == Some(e)
  {
    var js := EventToJs(e);
    var d := e.eventDetails;
    var details := DetailsToJs(d);
    assert Get(js, "id") == e.id by {}
    assert Get(js, "slug") == e.slug by {}
    assert Get(js, "title") == e.title by {}
    assert DetailsOf(js) == details by {
      assert Get(js, "event_details") == details by {}
    }
    assert ParseProgrammazione(Get(details, "programmazione")) == Some(d.programmazione) by {
      DetailsLookups6(d);
      ReparseProjections(d.programmazione);
    }
    DetailsToJsAgrees(d);
    ReparseDetails(d, e.id, RenderedTitle(js));
  }
}

=== FILE: js_text.dfy ===
/**
 * The pieces of JavaScript's string semantics the client relies on:
 * the white-space class shared by `String.prototype.trim` and the regular
 * expression class `\s`, and `parseInt(text, 10)`.
 */
module JsText {
  import opened Wrappers
  import opened Decimal

  /** ECMAScript WhiteSpace and LineTerminator code points (the `\s` class). */
  predicate IsJsSpace(c: char) {
    var n := c as int;
    n == 0x09 || n == 0x0A || n == 0x0B || n == 0x0C || n == 0x0D || n == 0x20 ||
    n == 0xA0 || n == 0x1680 || (0x2000 <= n <= 0x200A) || n == 0x2028 || n == 0x2029 ||
    n == 0x202F || n == 0x205F || n == 0x3000 || n == 0xFEFF
  }

  predicate AllSpace(s: string) {
    forall i :: 0 <= i < |s| ==> IsJsSpace(s[i])
  }

  /** `s.trimStart()`: the suffix left after dropping leading white space. */
  function TrimStart(s: string): (r: string)
    ensures |r| <= |s| && r == s[|s| - |r|..]
    ensures AllSpace(s[..|s| - |r|])
    ensures r == [] || !IsJsSpace(r[0])
  {
    if s != [] && IsJsSpace(s[0]) then
      var r := TrimStart(s[1..]);
      assert s[1..][..|s| - 1 - |r|] == s[1..|s| - |r|];
      r
    else
      s
  }

  /** `s.trimEnd()`: the prefix left after dropping trailing white space. */
  function TrimEnd(s: string): (r: string)
    ensures |r| <= |s| && r == s[..|r|]
    ensures AllSpace(s[|r|..])
    ensures r == [] || !IsJsSpace(r[|r| - 1])
  {
    if s != [] && IsJsSpace(s[|s| - 1]) then
      var r := TrimEnd(s[..|s| - 1]);
      assert s[..|s| - 1][|r|..] + [s[|s| - 1]] == s[|r|..];
      r
    else
      s
  }

  /** `s.trim()`. */
  function Trim(s: string): (r: string)
    ensures |r| <= |s|
    ensures r == [] || (!IsJsSpace(r[0]) && !IsJsSpace(r[|r| - 1]))
  {
    TrimEnd(TrimStart(s))
  }

  /** A string trims to nothing exactly when every character of it is white space. */
  lemma TrimEmptyIffAllSpace(s: string)
    ensures Trim(s) == [] <==> AllSpace(s)
  {
    var t := TrimStart(s);
    if Trim(s) == [] {
      // TrimEnd left nothing of t, so t is all white space; its first character is not.
      assert t[0..] == t;
      assert t == [];
      assert s[..|s| - |t|] == s;
    }
  }

  /** Taking n characters of the suffix at o is the slice from o to o + n. */
  lemma SliceOfSuffix(s: string, o: nat, n: nat)
    requires o + n <= |s|
    ensures s[o..][..n] == s[o..o + n]
  {
  }

  /** `s.trim()` is the slice of s at offset o, with only white space before and after it. */
  lemma TrimIsInnerSlice(s: string) returns (o: nat)
    ensures o + |Trim(s)| <= |s|
    ensures Trim(s) == s[o..o + |Trim(s)|]
    ensures forall i :: 0 <= i < o ==> IsJsSpace(s[i])
    ensures forall i :: o + |Trim(s)| <= i < |s| ==> IsJsSpace(s[i])
  {
    var t := TrimStart(s);
    var u := TrimEnd(t);
    o := |s| - |t|;
    assert Trim(s) == u;
    SliceOfSuffix(s, o, |u|);
    forall i | 0 <= i < o
      ensures IsJsSpace(s[i])
    {
      assert s[..o][i] == s[i];
    }
    forall i | o + |u| <= i < |s|
      ensures IsJsSpace(s[i])
    {
      assert t[|u|..][i - o - |u|] == s[i];
    }
  }

  /** The longest prefix of s made of decimal digits. */
  function DigitPrefix(s: string): (r: string)
    ensures AllDigits(r) && |r| <= |s| && r == s[..|r|]
    ensures |r| < |s| ==> !IsDigit(s[|r|])
  {
    if s != [] && IsDigit(s[0]) then [s[0]] + DigitPrefix(s[1..]) else []
  }

  /**
   * `parseInt(s, 10)`: leading white space is skipped, one optional sign is read,
   * then the longest run of digits; no digit at all gives NaN (None).
   */
  function ParseInt(s: string): (r: Option<int>)
    ensures r.None? <==> (var t := TrimStart(s);
                          var body := if t != [] && (t[0] == '+' || t[0] == '-') then t[1..] else t;
                          body == [] || !IsDigit(body[0]))
  {
    var t := TrimStart(s);
    var negative := t != [] && t[0] == '-';
    var body := if t != [] && (t[0] == '+' || t[0] == '-') then t[1..] else t;
    var digits := DigitPrefix(body);
    var magnitude: int := DigitsValue(digits);
    if digits == [] then None
    else if negative then Some(-magnitude)
    else Some(magnitude)
  }

  lemma DigitPrefixOfDigits(s: string)
    requires AllDigits(s)
    ensures DigitPrefix(s) == s
  {
    if s != [] {
      DigitPrefixOfDigits(s[1..]);
    }
  }

  /** What a number input displays (`value={n}`) parses back to n. */
  lemma ParseIntOfNatToString(n: nat)
    ensures ParseInt(NatToString(n)) == Some(n)
  {
    var s := NatToString(n);
    assert !IsJsSpace(s[0]) && s[0] != '+' && s[0] != '-';
    assert TrimStart(s) == s;
    DigitPrefixOfDigits(s);
    DigitsValueOfNatToString(n);
  }
}

=== FILE: ledger.dfy ===
/**
 * The occupied-seat ledger: one list of seat ids per (movie post, showtime key),
 * stored as post meta `_occupied_seats_<showtime key>` on the movie post, and the
 * merge/diff that `baaria_update_occupied_seats_internal_v6` applies to it.
 */
module Ledger {
  import opened SeatLists

  /** (movie post id, showtime key) */
  type LedgerKey = (int, string)

  type OccupancyLedger = map<LedgerKey, seq<string>>

  /** PHP's `empty()` on a string: the empty string and "0" are both empty. */
  predicate PhpEmptyString(s: string) {
    s == "" || s == "0"
  }

  /**
   * The new occupied list: `array_merge` with the seats to add (when there are any),
   * `array_diff` with the seats to remove (when there are any), then
   * `array_values(array_unique(...))`.
   */
  function UpdatedSeats(occupied: seq<string>, add: seq<string>, remove: seq<string>): (r: seq<string>)
    ensures NoDup(r)
    ensures forall x :: x in r <==> (x in occupied || x in add) && x !in remove
  {
    var merged := if add != [] then occupied + add else occupied;
    var remaining := if remove != [] then Diff(merged, remove) else merged;
    Unique(remaining)
  }

  /** `get_post_meta(...) ?: []`: a missing entry reads as the empty list. */
  function Stored(ledger: OccupancyLedger, movieId: int, showtimeKey: string): (r: seq<string>)
    ensures (movieId, showtimeKey) in ledger ==> r == ledger[(movieId, showtimeKey)]
    ensures (movieId, showtimeKey) !in ledger ==> r == []
  {
    if (movieId, showtimeKey) in ledger then ledger[(movieId, showtimeKey)] else []
  }

  /**
   * The whole ledger after one update: untouched when the movie id or the
   * showtime key is empty, otherwise only the entry of that pair is rewritten.
   */
  function LedgerAfterUpdate(ledger: OccupancyLedger, movieId: int, showtimeKey: string,
                             add: seq<string>, remove: seq<string>): (r: OccupancyLedger)
    ensures movieId == 0 || PhpEmptyString(showtimeKey) ==> r == ledger
    ensures movieId != 0 && !PhpEmptyString(showtimeKey) ==>
      (movieId, showtimeKey) in r &&
      r[(movieId, showtimeKey)] == UpdatedSeats(Stored(ledger, movieId, showtimeKey), add, remove)
    ensures forall k :: k != (movieId, showtimeKey) ==> (k in r <==> k in ledger)
    ensures forall k :: k in ledger && k != (movieId, showtimeKey) ==> r[k] == ledger[k]
  {
    if movieId == 0 || PhpEmptyString(showtimeKey) then ledger
    else ledger[(movieId, showtimeKey) := UpdatedSeats(Stored(ledger, movieId, showtimeKey), add, remove)]
  }

  /** Reserving keeps the existing seats in place and appends the new ones, each once. */
  lemma ReserveAppends(occupied: seq<string>, add: seq<string>)
    requires NoDup(occupied)
    ensures UpdatedSeats(occupied, add, []) == occupied + Unique(Diff(add, occupied))
  {
    UniqueOfNoDup(occupied);
    if add != [] {
      UniqueAppend(occupied, add);
    } else {
      assert occupied + [] == occupied;
    }
  }

  /** Releasing keeps the order of the seats that stay. */
  lemma ReleaseFilters(occupied: seq<string>, remove: seq<string>)
    requires NoDup(occupied)
    ensures UpdatedSeats(occupied, [], remove) == Diff(occupied, remove)
  {
    if remove != [] {
      DiffKeepsNoDup(occupied, remove);
      UniqueOfNoDup(Diff(occupied, remove));
    } else {
      DiffDisjoint(occupied, remove);
      UniqueOfNoDup(occupied);
    }
  }

  /** Reserving the same seats a second time changes nothing. */
  lemma ReserveIdempotent(occupied: seq<string>, add: seq<string>)
    ensures UpdatedSeats(UpdatedSeats(occupied, add, []), add, []) == UpdatedSeats(occupied, add, [])
  {
    var once := UpdatedSeats(occupied, add, []);
    ReserveAppends(once, add);
    DiffCovered(add, once);
    assert once + [] == once;
  }

  /**
   * Releasing what was just reserved restores the ledger entry, provided none of
   * those seats was occupied before.
   */
  lemma ReserveThenRelease(occupied: seq<string>, seats: seq<string>)
    requires NoDup(occupied)
    requires forall x :: x in seats ==> x !in occupied
    ensures UpdatedSeats(UpdatedSeats(occupied, seats, []), [], seats) == occupied
  {
    var once := UpdatedSeats(occupied, seats, []);
    ReserveAppends(occupied, seats);
    DiffDisjoint(seats, occupied);
    ReleaseFilters(once, seats);
    DiffAppend(occupied, Unique(seats), seats);
    DiffDisjoint(occupied, seats);
    DiffCovered(Unique(seats), seats);
    assert occupied + [] == occupied;
  }

  /**
   * Deleting a confirmed booking undoes what its confirmation did to the ledger:
   * every (movie, showtime) entry reads as it did before, provided the booking's
   * seats were free when it was confirmed.
   */
  lemma ConfirmThenDeleteRestoresLedger(ledger: OccupancyLedger, movieId: int, showtimeKey: string, seats: seq<string>)
    requires forall k :: k in ledger ==> NoDup(ledger[k])
    requires forall x :: x in seats ==> x !in Stored(ledger, movieId, showtimeKey)
    ensures var after := LedgerAfterUpdate(LedgerAfterUpdate(ledger, movieId, showtimeKey, seats, []), movieId, showtimeKey, [], seats);
      forall m, k :: Stored(after, m, k) == Stored(ledger, m, k)
  {
    if movieId != 0 && !PhpEmptyString(showtimeKey) {
      var occupied := Stored(ledger, movieId, showtimeKey);
      assert NoDup(occupied);
      ReserveThenRelease(occupied, seats);
    }
  }
}

=== FILE: quantity.dfy ===
/**
 * The quantity picker of the short-film block booking page: the seat count
 * still available, the largest quantity offered, the clamp applied to what the
 * user types, and the total running time of the block.
 */
module QuantityPicker {
  import opened Wrappers
  import opened Decimal
  import opened JsText

  /** The page's approximation of a venue's capacity. */
  const TotalSeatsApproximation: int := 200

  /** Most seats one booking may take on this page. */
  const MaxPerBooking: int := 4

  /** `availableSeatsCount`: the capacity less occupied, VIP and disabled seats (may go negative). */
  function AvailableSeatsCount(occupied: seq<string>, vip: seq<string>, disabled: seq<string>): (n: int)
    ensures n <= TotalSeatsApproximation
    ensures n + |occupied| + |vip| + |disabled| == TotalSeatsApproximation
  {
    TotalSeatsApproximation - (|occupied| + |vip| + |disabled|)
  }

  /** `Math.min(4, availableSeatsCount)`. */
  function MaxQuantity(available: int): (m: int)
    ensures m <= MaxPerBooking && m <= available
    ensures m == MaxPerBooking || m == available
  {
    if available < MaxPerBooking then available else MaxPerBooking
  }

  /** `parseInt(value, 10) || 1`: NaN and 0 both become 1. */
  function TypedQuantity(input: string): (q: int)
    ensures q != 0
    ensures ParseInt(input).None? ==> q == 1
  {
    match ParseInt(input)
    case Some(v) => if v == 0 then 1 else v
    case None => 1
  }

  /** The `onChange` update: `Math.min(maxQuantity, Math.max(1, typed))`. */
  function ClampQuantity(maxQuantity: int, input: string): (q: int)
    ensures q <= maxQuantity
    ensures maxQuantity >= 1 ==> 1 <= q
    ensures maxQuantity < 1 ==> q == maxQuantity
  {
    var typed := TypedQuantity(input);
    var atLeastOne := if typed < 1 then 1 else typed;
    if maxQuantity < atLeastOne then maxQuantity else atLeastOne
  }

  /** Typing an offered quantity selects exactly that quantity. */
  lemma ClampKeepsOfferedQuantity(maxQuantity: int, n: nat)
    requires 1 <= n <= maxQuantity
    ensures ClampQuantity(maxQuantity, NatToString(n)) == n
  {
    ParseIntOfNatToString(n);
  }

  /** Input that is not a number selects one seat whenever a seat is offered. */
  lemma ClampUnparsable(maxQuantity: int, input: string)
    requires ParseInt(input).None? && maxQuantity >= 1
    ensures ClampQuantity(maxQuantity, input) == 1
  {
  }

  /** The proceed button is enabled unless `maxQuantity <= 0`. */
  function CanProceed(maxQuantity: int): (enabled: bool)
    ensures enabled <==> maxQuantity >= 1
  {
    !(maxQuantity <= 0)
  }

  /** The picker's `max` attribute: the offered maximum, or 1 when nothing is offered. */
  function InputMax(maxQuantity: int): (m: int)
    ensures m >= 1
    ensures maxQuantity >= 1 ==> m == maxQuantity
  {
    if maxQuantity > 0 then maxQuantity else 1
  }

  /** Whatever is typed, the selected quantity lies within the picker's `min` and `max` when a seat is offered. */
  lemma ClampWithinPickerBounds(maxQuantity: int, input: string)
    requires maxQuantity >= 1
    ensures 1 <= ClampQuantity(maxQuantity, input) <= InputMax(maxQuantity)
    ensures ClampQuantity(maxQuantity, input) <= MaxPerBooking || maxQuantity > MaxPerBooking
  {
  }

  /** One seat can be booked exactly when fewer than 200 seats are taken or set aside. */
  lemma ProceedIffSeatLeft(occupied: seq<string>, vip: seq<string>, disabled: seq<string>)
    ensures CanProceed(MaxQuantity(AvailableSeatsCount(occupied, vip, disabled))) <==>
      |occupied| + |vip| + |disabled| < TotalSeatsApproximation
  {
  }

  /** `durata_minuti || 0` of one film. */
  function DurationOrZero(minutes: Option<int>): int {
    minutes.GetOr(0)
  }

  /** `eventGroup.reduce((sum, curr) => sum + (durata_minuti || 0), 0)`, folded left to right. */
  function TotalDuration(durations: seq<Option<int>>): (total: int)
    ensures (forall i :: 0 <= i < |durations| ==> durations[i].None?) ==> total == 0
    ensures |durations| == 1 ==> total == DurationOrZero(durations[0])
  {
    if durations == [] then 0
    else TotalDuration(durations[..|durations| - 1]) + DurationOrZero(durations[|durations| - 1])
  }

  /** The total of a block is the total of its first part plus the total of the rest. */
  lemma {:induction false} TotalDurationAppend(a: seq<Option<int>>, b: seq<Option<int>>)
    ensures TotalDuration(a + b) == TotalDuration(a) + TotalDuration(b)
    decreases |b|
  {
    if b == [] {
      assert a + b == a;
    } else {
      assert (a + b)[..|a + b| - 1] == a + b[..|b| - 1];
      TotalDurationAppend(a, b[..|b| - 1]);
    }
  }

  /** With non-negative durations the total is non-negative and at least the duration of every film. */
  lemma {:induction false} TotalDurationBounds(durations: seq<Option<int>>)
    requires forall i :: 0 <= i < |durations| ==> DurationOrZero(durations[i]) >= 0
    ensures TotalDuration(durations) >= 0
    ensures forall i :: 0 <= i < |durations| ==> DurationOrZero(durations[i]) <= TotalDuration(durations)
    decreases |durations|
  {
    if durations != [] {
      var init := durations[..|durations| - 1];
      TotalDurationBounds(init);
    }
  }
}

=== FILE: seat_booking.dfy ===
/**
 * The seat map of the seat-selection page: the seat grid, the status of each
 * seat, and what a click does to the current selection.
 */
module SeatBooking {
  import opened Decimal
  import opened SeatLists

  /** The seat id that is drawn as an empty, unclickable place. */
  const NoSeat: string := "Q17"

  /** A column of the grid: a numbered seat column or the aisle gap (`''`). */
  datatype Column = SeatColumn(number: nat) | Aisle

  /** Consecutive seat columns first, first + 1, ..., first + count - 1. */
  function ColumnRun(first: nat, count: nat): (cols: seq<Column>)
    ensures |cols| == count && forall i :: 0 <= i < count ==> cols[i] == SeatColumn(first + i)
  {
    seq(count, i requires 0 <= i < count => SeatColumn(first + i))
  }

  /** `fullCols`: columns 1 to 8, the aisle, columns 9 to 17. */
  const FullCols: seq<Column> := ColumnRun(1, 8) + [Aisle] + ColumnRun(9, 9)

  /** `lastRowCols`: columns 3 to 14, used by row V. */
  const LastRowCols: seq<Column> := ColumnRun(3, 12)

  /** `rows`, front to back. */
  const Rows: seq<char> := ['E', 'F', 'G', 'H', 'I', 'L', 'M', 'N', 'O', 'P', 'Q', 'R', 'S', 'T', 'U', 'V']

  function RowColumns(row: char): seq<Column> {
    if row == 'V' then LastRowCols else FullCols
  }

  /** A seat id: the row letter followed by the column number, `${row}${col}`. */
  function SeatId(row: char, number: nat): (id: string)
    ensures |id| >= 2 && id[0] == row
  {
    [row] + NatToString(number)
  }

  lemma SeatIdInjective(r1: char, n1: nat, r2: char, n2: nat)
    requires SeatId(r1, n1) == SeatId(r2, n2)
    ensures r1 == r2 && n1 == n2
  {
    assert SeatId(r1, n1)[1..] == NatToString(n1) && SeatId(r2, n2)[1..] == NatToString(n2);
    NatToStringInjective(n1, n2);
  }

  /** The column numbers of a column list, the aisle skipped. */
  function SeatNumbers(cols: seq<Column>): (ns: seq<nat>)
    ensures |ns| <= |cols|
  {
    if cols == [] then []
    else (if cols[0].Aisle? then [] else [cols[0].number]) + SeatNumbers(cols[1..])
  }

  lemma {:induction false} SeatNumbersAppend(a: seq<Column>, b: seq<Column>)
    ensures SeatNumbers(a + b) == SeatNumbers(a) + SeatNumbers(b)
  {
    if a != [] {
      assert (a + b)[1..] == a[1..] + b;
      SeatNumbersAppend(a[1..], b);
    } else {
      assert a + b == b;
    }
  }

  lemma {:induction false} SeatNumbersOfRun(first: nat, count: nat)
    ensures |SeatNumbers(ColumnRun(first, count))| == count
    ensures forall i :: 0 <= i < count ==> SeatNumbers(ColumnRun(first, count))[i] == first + i
    decreases count
  {
    if count > 0 {
      assert ColumnRun(first, count)[1..] == ColumnRun(first + 1, count - 1);
      SeatNumbersOfRun(first + 1, count - 1);
    }
  }

  /** The seat ids rendered in one row, left to right. */
  function RowSeats(row: char): (ids: seq<string>)
    ensures |ids| == |SeatNumbers(RowColumns(row))|
    ensures forall i :: 0 <= i < |ids| ==> ids[i] == SeatId(row, SeatNumbers(RowColumns(row))[i])
  {
    var ns := SeatNumbers(RowColumns(row));
    seq(|ns|, i requires 0 <= i < |ns| => SeatId(row, ns[i]))
  }

  /** Row V holds columns 3 to 14; every other row columns 1 to 17, the aisle not being a seat. */
  lemma RowLayout(row: char)
    ensures row == 'V' ==> |SeatNumbers(RowColumns(row))| == 12
    ensures row != 'V' ==> |SeatNumbers(RowColumns(row))| == 17
    ensures row == 'V' ==> forall i :: 0 <= i < 12 ==> SeatNumbers(RowColumns(row))[i] == i + 3
    ensures row != 'V' ==> forall i :: 0 <= i < 17 ==> SeatNumbers(RowColumns(row))[i] == i + 1
  {
    SeatNumbersOfRun(3, 12);
    SeatNumbersAppend(ColumnRun(1, 8) + [Aisle], ColumnRun(9, 9));
    SeatNumbersAppend(ColumnRun(1, 8), [Aisle]);
    SeatNumbersOfRun(1, 8);
    SeatNumbersOfRun(9, 9);
    assert SeatNumbers([Aisle]) == [];
  }

  /** No seat id is drawn twice anywhere on the map. */
  lemma SeatIdsDistinct(r1: char, i1: nat, r2: char, i2: nat)
    requires r1 in Rows && r2 in Rows
    requires i1 < |RowSeats(r1)| && i2 < |RowSeats(r2)|
    requires RowSeats(r1)[i1] == RowSeats(r2)[i2]
    ensures r1 == r2 && i1 == i2
  {
    RowLayout(r1);
    RowLayout(r2);
    SeatIdInjective(r1, SeatNumbers(RowColumns(r1))[i1], r2, SeatNumbers(RowColumns(r2))[i2]);
  }

  /** "Q17" is a place of the grid (row Q, last column) that is shown empty. */
  lemma NoSeatIsOnTheGrid()
    ensures NoSeat == SeatId('Q', 17) && 'Q' in Rows
    ensures NoSeat in RowSeats('Q')
  {
    RowLayout('Q');
    assert NatToString(17) == "17";
    assert RowSeats('Q')[16] == SeatId('Q', 17);
  }

  datatype SeatStatus = Empty | Occupied | Selected | Available

  /** `getSeatStatus`: the empty place first, then occupied, then selected. */
  function GetSeatStatus(occupied: seq<string>, selected: seq<string>, seat: string): (st: SeatStatus)
    ensures st == Empty <==> seat == NoSeat
    ensures st == Occupied <==> seat != NoSeat && seat in occupied
    ensures st == Selected <==> seat != NoSeat && seat !in occupied && seat in selected
    ensures st == Available <==> seat != NoSeat && seat !in occupied && seat !in selected
  {
    if seat == NoSeat then Empty
    else if seat in occupied then Occupied
    else if seat in selected then Selected
    else Available
  }

  /** `handleSeatClick`: the selection passed on after a click (an ignored click keeps it). */
  function HandleSeatClick(occupied: seq<string>, selected: seq<string>, seat: string): (next: seq<string>)
    ensures seat in occupied || seat == NoSeat ==> next == selected
    ensures seat !in occupied && seat != NoSeat && seat in selected ==>
      next == Diff(selected, [seat]) && seat !in next
    ensures seat !in occupied && seat != NoSeat && seat !in selected ==>
      next == selected + [seat]
    ensures forall x :: x != seat ==> (x in next <==> x in selected)
  {
    if seat in occupied || seat == NoSeat then selected
    else if seat in selected then Diff(selected, [seat])
    else selected + [seat]
  }

  /** A click acts exactly as the seat's status announces. */
  lemma ClickFollowsStatus(occupied: seq<string>, selected: seq<string>, seat: string)
    ensures GetSeatStatus(occupied, selected, seat) in {Empty, Occupied} <==>
      HandleSeatClick(occupied, selected, seat) == selected
    ensures GetSeatStatus(occupied, selected, seat) == Selected <==>
      seat in selected && seat !in HandleSeatClick(occupied, selected, seat)
    ensures GetSeatStatus(occupied, selected, seat) == Available <==>
      HandleSeatClick(occupied, selected, seat) == selected + [seat]
  {
    var next := HandleSeatClick(occupied, selected, seat);
    if seat != NoSeat && seat !in occupied {
      if seat in selected {
        assert seat !in next;
        assert next != selected + [seat];
      } else {
        assert |next| == |selected| + 1;
      }
    }
  }

  /** Clicking a free seat twice gives back the selection one started with. */
  lemma ClickTwiceRestores(occupied: seq<string>, selected: seq<string>, seat: string)
    requires seat !in occupied && seat != NoSeat && seat !in selected
    ensures HandleSeatClick(occupied, HandleSeatClick(occupied, selected, seat), seat) == selected
  {
    DiffAppend(selected, [seat], [seat]);
    DiffDisjoint(selected, [seat]);
    assert Diff([seat], [seat]) == [];
    assert selected + [] == selected;
  }

  /** A selection built by clicks never holds a seat twice. */
  lemma ClickKeepsNoDup(occupied: seq<string>, selected: seq<string>, seat: string)
    requires NoDup(selected)
    ensures NoDup(HandleSeatClick(occupied, selected, seat))
  {
    if seat !in occupied && seat != NoSeat && seat in selected {
      DiffKeepsNoDup(selected, [seat]);
    }
  }
}

=== FILE: seat_lists.dfy ===
/**
 * Lists of seat ids and the list operations applied to them: PHP's
 * `array_diff` and `array_unique` (followed by `array_values`) on the server,
 * and `Array.prototype.filter` on the client.
 */
module SeatLists {

  predicate NoDup(s: seq<string>) {
    forall i, j :: 0 <= i < j < |s| ==> s[i] != s[j]
  }

  /**
   * `array_values(array_diff(s, remove))`: the elements of s that do not occur in
   * remove, in their original order (duplicates of a kept value are all kept).
   */
  function Diff(s: seq<string>, remove: seq<string>): (r: seq<string>)
    ensures |r| <= |s|
    ensures forall x :: x in r <==> x in s && x !in remove
  {
    if s == [] then []
    else
      var kept := Diff(s[..|s| - 1], remove);
      var last := s[|s| - 1];
      assert forall x :: x in s <==> x in s[..|s| - 1] || x == last;
      if last in remove then kept else kept + [last]
  }

  /**
   * `array_values(array_unique(s))`: the first occurrence of every value of s,
   * in the order of those first occurrences.
   */
  function Unique(s: seq<string>): (r: seq<string>)
    ensures NoDup(r) && |r| <= |s|
    ensures forall x :: x in r <==> x in s
  {
    if s == [] then []
    else
      var kept := Unique(s[..|s| - 1]);
      var last := s[|s| - 1];
      assert forall x :: x in s <==> x in s[..|s| - 1] || x == last;
      if last in kept then kept else kept + [last]
  }

  lemma {:induction false} DiffAppend(a: seq<string>, b: seq<string>, remove: seq<string>)
    ensures Diff(a + b, remove) == Diff(a, remove) + Diff(b, remove)
    decreases |b|
  {
    if b != [] {
      var b' := b[..|b| - 1];
      assert (a + b)[..|a + b| - 1] == a + b';
      DiffAppend(a, b', remove);
    } else {
      assert a + b == a;
    }
  }

  /** Removing values that do not occur changes nothing. */
  lemma {:induction false} DiffDisjoint(s: seq<string>, remove: seq<string>)
    requires forall x :: x in s ==> x !in remove
    ensures Diff(s, remove) == s
    decreases |s|
  {
    if s != [] {
      DiffDisjoint(s[..|s| - 1], remove);
    }
  }

  /** Removing every value that occurs leaves nothing. */
  lemma DiffCovered(s: seq<string>, remove: seq<string>)
    requires forall x :: x in s ==> x in remove
    ensures Diff(s, remove) == []
  {
  }

  lemma {:induction false} DiffKeepsNoDup(s: seq<string>, remove: seq<string>)
    requires NoDup(s)
    ensures NoDup(Diff(s, remove))
    decreases |s|
  {
    if s != [] {
      var init := s[..|s| - 1];
      assert NoDup(init);
      DiffKeepsNoDup(init, remove);
      assert s[|s| - 1] !in init;
    }
  }

  /** A list without repeated values is its own `array_unique`. */
  lemma {:induction false} UniqueOfNoDup(s: seq<string>)
    requires NoDup(s)
    ensures Unique(s) == s
    decreases |s|
  {
    if s != [] {
      var init := s[..|s| - 1];
      assert NoDup(init);
      UniqueOfNoDup(init);
      assert s[|s| - 1] !in init;
      assert init + [s[|s| - 1]] == s;
    }
  }

  /**
   * De-duplicating a concatenation keeps the de-duplicated front and appends
   * the values of the back that the front does not already hold.
   */
  lemma {:induction false} UniqueAppend(a: seq<string>, b: seq<string>)
    ensures Unique(a + b) == Unique(a) + Unique(Diff(b, a))
    decreases |b|
  {
    if b == [] {
      assert a + b == a;
      assert Unique(a) + [] == Unique(a);
    } else {
      var b' := b[..|b| - 1];
      var x := b[|b| - 1];
      var front := a + b';
      assert (a + b)[..|a + b| - 1] == front && (a + b)[|a + b| - 1] == x;
      var p := Unique(front);
      assert Unique(a + b) == if x in p then p else p + [x];
      UniqueAppend(a, b');
      var d := Diff(b', a);
      assert p == Unique(a) + Unique(d);
      assert Diff(b, a) == if x in a then d else d + [x];
      if x in a {
        assert x in Unique(a);
      } else {
        assert (d + [x])[..|d + [x]| - 1] == d;
        assert Unique(d + [x]) == if x in Unique(d) then Unique(d) else Unique(d) + [x];
        assert x in p <==> x in Unique(d);
      }
    }
  }
}

=== FILE: wrappers.dfy ===
/** An optional value: a missing field, a lookup that finds nothing. */
module Wrappers {
  datatype Option<+T> = None | Some(value: T) {
    function GetOr(default: T): T {
      match this
      case Some(v) => v
      case None => default
    }
  }
}
